=== FILE: README.md ===
# Luminar feedback core in Dafny

A functional model of the decision logic behind Luminar, a hosted feedback
board with changelogs and a dashboard. The model covers four groups of logic.

- **Request authorization** (`apps/web/lib/auth.ts`).
  - `createClient` resolves an API key or a session.
  - The four guards `withWorkspaceAuth`, `withFeedbackBoardAuth`,
    `withFeedbackAuth` and `withUserAuth` stop at the first failing check.
- **The client-side feedback filter** (`feedback-filters.tsx`).
  - The per-item predicate: tab, search, tag/status/board facets and the date range.
  - The stable newest-first and upvote sorts.
  - The query-value rewrites of the filter header, and `isAllEmpty`.
- **The feedback helpers** (`apps/web/lib/api/feedback.ts`).
  - Tag validation and `raw_tags`, and the widget-profile case analysis.
  - The content check, create, and the field-wise update merge.
  - The upvote toggle, `has_upvoted` marking, and the tag create/delete rules.
- **Small pure helpers.**
  - `formatTimeAgo` and the comment upvote flip (`comment.tsx`).
  - The filter combobox's selection toggle, query values and page stack.
  - The workspace helpers' validation order, member reshaping and analytics rewriting.
  - The title provider's first-matching-tab lookup.

The database is an immutable `Store.Db` record:
- keyed tables are maps: API keys by secret, workspaces by slug, boards by
  id, module configuration by workspace id, feedback by id;
- tables whose order or duplicates matter are sequences: profiles, tags;
- relations are sets of pairs: members, upvoters.

Every guard and helper is a total function. It returns
`Granted(context)`, `Denied({ message, status })`, or `Thrown`. `Thrown`
stands for a `TypeError` the source raises when it reads a property of a
missing object, for example the user id on the API-key path. Helpers that
write return the database they leave behind (`Stored`), because some of
them write before they fail.

JavaScript semantics are written out where they matter:
- `''.split(',')` is `['']`;
- `replace('@', …)` replaces the first occurrence only;
- `find` returning an empty string is falsy;
- arrays, even empty ones, are truthy;
- `Math.floor(a / b)` for a positive divisor is Dafny's `/`;
- `/<[^>]*>?/g` removes from each `<` to the next `>`, or to the end;
- `Array.prototype.sort` is stable (an insertion sort here).

The modules follow the source files:
- `Common` holds strings, `Split`/`Join` and `Where`;
- `Store`, `Auth`, `StableSort`, `FeedbackFilters`, `FeedbackApi`, `Comments`,
  `FilterCombobox`, `WorkspaceApi` and `TitleProvider` model one source file
  or concern each.

## Model

| member | source | states |
|---|---|---|
| Auth.SecondToken | apps/web/lib/auth.ts:92 | The key is the second space-separated token of the header: the text after the first space, up to the next space or the end. It exists exactly when the header holds a space, and it contains no space. |
| Auth.KeyFor | apps/web/lib/auth.ts:92-107 | A key is found exactly when the second token names a stored key with a non-empty id, and the key found is the one stored under that token. |
| Auth.CreateClient | apps/web/lib/auth.ts:57-139 | Without a header, the session lookup is returned untouched. With a header, the session is never consulted. The key path's errors come in a fixed order: 401 for an unknown key, then 403 for a public-access key without `isPublic`, then 404 when the creator has no profile row. A key that passes both checks resolves to its creator's profile exactly when that profile exists. |
| Auth.GateError | apps/web/lib/auth.ts:159-166 | The missing-sub-claim message becomes the login-required message, and other messages are kept. A falsy status becomes 401, and other statuses are kept. |
| Auth.LoginGate | apps/web/lib/auth.ts:159 | The gate rejects exactly when the key path rejected, or when there is an auth error and login is required. Its status is never 0. |
| Auth.Caller | apps/web/lib/auth.ts:178 | On the session path the handler receives the session's user. On the API-key path it receives no user object, because `user.data` is a profile row. |
| Auth.WorkspaceAuth | apps/web/lib/auth.ts:153-201 | The login gate comes first, then a missing workspace (404), then the membership check. That check runs only when anonymous access is off and gives 403 to a non-member. With `allowAnonAccess` an existing workspace is granted and the flag is passed on as `isPublic`. Without it a member is granted and a membership check without a user throws. A grant without anonymous access implies membership. |
| Auth.ResolveBoard | apps/web/lib/auth.ts:237-280 | A board id is looked up directly and the slug is ignored. Otherwise a missing or empty slug gives 400 and an unknown slug gives 404. For a known slug, the board is the workspace's default board when it has a module row, and the lookup throws when it has none. |
| Auth.FeedbackBoardAuth | apps/web/lib/auth.ts:212-311 | The order is the login gate, then board resolution, then 404 for a missing board. A public board is granted without a membership check. A private board needs membership in the board's own workspace: a member is granted, a non-member gets 403, and a missing user object throws. |
| Auth.FeedbackAuth | apps/web/lib/auth.ts:323-368 | The order is the login gate, then workspace-not-found, then feedback-not-found. Otherwise the request is always granted with the stored workspace and feedback. It never throws. |
| Auth.UserAuth | apps/web/lib/auth.ts:378-396 | The guard rejects exactly when the key path rejected or `user.error` is set, with the login gate's error. Otherwise it hands on the caller. |
| Auth.AnonAccessOnlyWidens | apps/web/lib/auth.ts:153-201 | Whatever the workspace guard grants without anonymous access it also grants with it, to the same user and workspace. |
| Auth.UserAuthMatchesLoginGate | apps/web/lib/auth.ts:378-396 | A request the user guard rejects is rejected with the same error by the feedback and board guards when login is required. For a request it accepts, requiring login changes nothing in those guards. |
| Auth.HeaderHidesSession | apps/web/lib/auth.ts:89-92 | With a non-empty header, two different session results give the same client response. |
| Auth.PublicKeyRejectedByBoardAndFeedbackGuards | apps/web/lib/auth.ts:110-116 | A public-access key is always rejected with 403 by the board and feedback guards. |
| Auth.BoardIdOverridesSlug | apps/web/lib/auth.ts:237-245 | With a board id, any two slugs give the same outcome. |
| Auth.FeedbackAuthIgnoresPrivacyAndOwnership | apps/web/lib/auth.ts:339-366 | Memberships, boards and module configuration have no influence on the feedback guard. It checks neither board privacy nor that the feedback belongs to the workspace. |
| Auth.PrivateBoardRejectsNonMember | apps/web/lib/auth.ts:290-306 | A signed-in non-member gets 403 from a private board, whatever the login requirement. |
| Auth.AnonymousReadsPublicBoard | apps/web/lib/auth.ts:223-309 | A visitor without a session reads a public board when login is not required. |
| Store.ProfileById | apps/web/lib/auth.ts:119-124 | `.single()` on profiles: a row is returned exactly when one row has the id, and that row has the id. |
| StableSort.SortDesc | apps/web/components/feedback/common/feedback-filters.tsx:204 | The result is a permutation of the input, sorted by the key in descending order. |
| StableSort.SortKeepsEarlierOrder | apps/web/components/feedback/common/feedback-filters.tsx:210-239 | Sorting a list already ordered by a secondary key, using a primary key, gives a list ordered lexicographically: primary descending, ties by secondary descending. This is the stability the source relies on. |
| FeedbackFilters.Filtered | apps/web/components/feedback/common/feedback-filters.tsx:116-203 | An item is in the result exactly when it is in the input and passes every filter. Each passing item occurs as often as in the input. |
| FeedbackFilters.FilterFeedback | apps/web/components/feedback/common/feedback-filters.tsx:105-241 | The result holds exactly the passing items, as a permutation of the filtered list. It is ordered newest first by default. With `upvotes`, ties in upvotes keep the newest-first order. With `trending`, it is sorted by the given score. |
| FeedbackFilters.ExcludeWins | apps/web/components/feedback/common/feedback-filters.tsx:133-151 | An item matching the exclude list fails the facet, even when it also matches the include list. |
| FeedbackFilters.BareNegationRejectsAll | apps/web/components/feedback/common/feedback-filters.tsx:127 | The search `!` rejects every item. |
| FeedbackFilters.AllEmptyKeepsEverything | apps/web/components/feedback/common/feedback-filters.tsx:274-290 | When `isAllEmpty` holds and no tab is given, every item passes. |
| FeedbackFilters.SearchLabel | apps/web/components/feedback/common/feedback-filters.tsx:315 | The label is "excludes" exactly when the value starts with `!`, and the search then keeps the titles not containing the rest. Otherwise it is "includes", and a non-empty search keeps the titles containing it. |
| FeedbackFilters.IncludeSearch | apps/web/components/feedback/common/feedback-filters.tsx:321 | The result has no `!` and keeps every other character of the value, so a value without `!` is unchanged. It is labelled "includes". A non-empty result keeps exactly the titles that contain it. |
| FeedbackFilters.IncludeSearchDistributes | apps/web/components/feedback/common/feedback-filters.tsx:321 | The include form of a concatenation is the concatenation of the include forms. |
| FeedbackFilters.ExcludeSearch | apps/web/components/feedback/common/feedback-filters.tsx:328 | The result is one leading `!` followed by a `!`-free body that is the same as the include form. It is labelled "excludes". It keeps exactly the titles that do not contain that body. |
| FeedbackFilters.SearchRewritesIdempotent | apps/web/components/feedback/common/feedback-filters.tsx:321-328 | Applying either rewrite twice is the same as applying it once. |
| FeedbackFilters.IncludedToExcluded | apps/web/components/feedback/common/feedback-filters.tsx:358-363 | The query value splits back into every excluded name and then every included name, each with `!`. |
| FeedbackFilters.ClearIncluded | apps/web/components/feedback/common/feedback-filters.tsx:398 | The query value splits back into only the excluded names with `!`. It is empty when there are none. |
| FeedbackFilters.ExcludedToIncluded | apps/web/components/feedback/common/feedback-filters.tsx:415-421 | The query value splits back into the included names followed by the excluded names, without `!`. |
| FeedbackFilters.ClearExcluded | apps/web/components/feedback/common/feedback-filters.tsx:456 | The query value splits back into the included names only. It is empty when there are none. |
| FeedbackApi.WorkspaceTags | apps/web/lib/api/feedback.ts:29-32 | The result is exactly the tag rows of the workspace. |
| FeedbackApi.InvalidTagIds | apps/web/lib/api/feedback.ts:45-58 | It holds exactly the requested ids that no workspace tag carries. It is empty exactly when every requested id is valid. |
| FeedbackApi.InvalidTagIdsInRequestOrder | apps/web/lib/api/feedback.ts:45-66 | The invalid ids of a request are those of its prefix followed by those of the rest, so they are reported in request order. |
| FeedbackApi.RawTagsFor | apps/web/lib/api/feedback.ts:70-74 | Every entry is the `{name, color}` of a workspace tag whose id was requested. Every such tag appears. |
| FeedbackApi.RawTagsDependOnIdSetOnly | apps/web/lib/api/feedback.ts:70-71 | `raw_tags` depends only on the set of requested ids. |
| FeedbackApi.DuplicateRequestsAddNothing | apps/web/lib/api/feedback.ts:70-71 | Repeating the requested ids adds no entries. |
| FeedbackApi.RawTagsInWorkspaceOrder | apps/web/lib/api/feedback.ts:70-71 | Entries follow workspace-tag order: the result for a concatenation of tag lists is the concatenation of the results. |
| FeedbackApi.ValidateTags | apps/web/lib/api/feedback.ts:27-75 | No workspace tags gives 404. Any unknown id gives 400 naming every unknown id. Otherwise the check succeeds, exactly when every id is valid, with `raw_tags`. |
| FeedbackApi.LocalPart | apps/web/lib/api/feedback.ts:148 | The part before the first `@`. It is a prefix containing no `@`, followed by `@` or the end. |
| FeedbackApi.WidgetEmail | apps/web/lib/api/feedback.ts:103 | `+widget` is inserted before the first `@` only. An address without `@` is unchanged. |
| FeedbackApi.Rename | apps/web/lib/api/feedback.ts:130-133 | Only the rows with the id get the new name. Ids and emails are kept. |
| FeedbackApi.ResolveWidgetProfile | apps/web/lib/api/feedback.ts:94-205 | The author is always a profile with the widget address. An existing widget profile is reused. Otherwise exactly one profile is created, named after the real profile, else the given name, else the local part. A reused profile is renamed when the given name differs from the widget profile's name (no real profile) or from the real profile's name (with one). |
| FeedbackApi.SecondResolutionReusesCreated | apps/web/lib/api/feedback.ts:94-205 | Resolving the same widget user again after a first resolution created a profile creates nothing and files under the same author. |
| FeedbackApi.AfterTag | apps/web/lib/api/feedback.ts:208 | With a `>` present, the result is the text after the first `>`. With none, it is empty. |
| FeedbackApi.StripTags | apps/web/lib/api/feedback.ts:208 | The result has no `<` and is no longer than the input. Text without `<` is unchanged. |
| FeedbackApi.StripTagsRemovesOneTag | apps/web/lib/api/feedback.ts:208 | One complete tag is removed, and the text before it and the stripped text after it are kept. |
| FeedbackApi.StripTagsDropsOpenTag | apps/web/lib/api/feedback.ts:208 | A `<` that no `>` follows is removed with the rest of the text, so the text before it is all that is left. |
| FeedbackApi.CreateTags | apps/web/lib/api/feedback.ts:27-75 | Without tag ids the request's `raw_tags` are kept. With them, no workspace tags gives 404 and unknown ids give 400 naming them. The tags are accepted exactly when the workspace has tags and every id is valid, and then `raw_tags` are the requested workspace tags. |
| FeedbackApi.CreateFeedback | apps/web/lib/api/feedback.ts:14-231 | Guard errors pass through with nothing written. Then come 404 for no workspace tags, 400 naming unknown tag ids, and 400 for a bad email. Absent content throws. Blank content gives 400 with no feedback row, though a widget profile already written stays. When every check passes and there is an author, a row is inserted on the guarded board; with neither a widget user nor a session user the helper throws. The row holds the given title, status and non-blank content, the validated tags, the time given and zero counters. Its author is the profile the widget resolution settles on, whose profile rows are the ones written, when a user is given, and the caller otherwise. Only the profile and feedback tables ever change, and a rejected create inserts no feedback. |
| FeedbackApi.CreatedFeedbackIsFound | apps/web/lib/api/feedback.ts:212-230 | A created row is then granted by the feedback guard under its id for the same session caller. |
| FeedbackApi.Merge | apps/web/lib/api/feedback.ts:353-359 | Id, owner and counters are unchanged. Title, content and board are replaced exactly when the patch value is truthy. Status is replaced exactly when defined, and tags exactly when given. |
| FeedbackApi.EmptyPatchKeepsRow | apps/web/lib/api/feedback.ts:353-359 | An update without fields leaves the row unchanged. |
| FeedbackApi.MergeIdempotent | apps/web/lib/api/feedback.ts:353-359 | Applying the same update twice equals applying it once. |
| FeedbackApi.MergeLaterWins | apps/web/lib/api/feedback.ts:353-359 | A later update that sets every field overrides an earlier one completely. |
| FeedbackApi.UpdateFeedback | apps/web/lib/api/feedback.ts:287-371 | Guard errors pass through. A defined `tags`, even `[]`, runs the tag check: 404 without workspace tags, 400 naming unknown ids. Valid tags replace `raw_tags` and the rest of the patch is merged, so `[]` clears them. A success writes exactly the merged row under the feedback's id. |
| FeedbackApi.EmptyUpdateKeepsDb | apps/web/lib/api/feedback.ts:353-365 | An update without fields or tags leaves the database unchanged. |
| FeedbackApi.UpvoteFeedback | apps/web/lib/api/feedback.ts:466-538 | A missing module row gives the `.single()` error. A missing user throws. An anonymous user with anonymous upvoting off gets 403. Any other caller's vote succeeds and toggles exactly the caller's pair, changing nothing else. A failure writes nothing. |
| FeedbackApi.UpvoteTwiceRestores | apps/web/lib/api/feedback.ts:501-534 | Two successful upvotes restore the upvoter table. |
| FeedbackApi.MarkUpvoted | apps/web/lib/api/feedback.ts:579-586 | A caller without upvotes gets the items unchanged. Otherwise every item's flag is set, and it is true exactly when its id was upvoted. Rows and tags are untouched. |
| FeedbackApi.MarkUpvotedIdempotent | apps/web/lib/api/feedback.ts:579-586 | Marking twice equals marking once. |
| FeedbackApi.CreateTag | apps/web/lib/api/feedback.ts:647-693 | Guard errors pass through. A name the workspace already has gives 400 with nothing written. Otherwise exactly one tag is appended. Unique names per workspace are preserved. |
| FeedbackApi.TagsNamed | apps/web/lib/api/feedback.ts:704-709 | The result holds only tags of the workspace with that name, and is non-empty exactly when such a tag exists. |
| FeedbackApi.DeleteTagByName | apps/web/lib/api/feedback.ts:696-731 | Guard errors pass through. Unless exactly one tag of the workspace has the name, the answer is 404 with nothing written. With exactly one, that tag is the answer, and the rows carrying its id are deleted. |
| FeedbackApi.UniqueNameIsDeleted | apps/web/lib/api/feedback.ts:696-731 | With unique tag names, deleting a name the workspace has succeeds and removes that tag. |
| FeedbackApi.CreateThenDeleteRestoresTags | apps/web/lib/api/feedback.ts:647-731 | Creating a tag with an unused id and then deleting it by name restores the tag table. |
| Comments.FormatTimeAgo | apps/web/components/feedback/comments/comment.tsx:44-65 | The answer is "just now" exactly when the age is under 1000 ms, negative ages included. Otherwise it uses the largest unit that fits at least once, with the value `floor(diff / unit)`, which is at least 1. |
| Comments.DecimalRoundTrip | apps/web/components/feedback/comments/comment.tsx:60 | The digits printed for a value read back as that value. |
| Comments.Text | apps/web/components/feedback/comments/comment.tsx:60-64 | "just now" exactly for `JustNow`. Otherwise the text is the count's digits without a leading zero, reading back as the value, then a space, the unit, the plural `s` exactly when the value is greater than 1, and " ago", with nothing else. |
| Comments.Flip | apps/web/components/feedback/comments/comment.tsx:106-114 | The flag flips, and the count moves by one in the direction of the new flag. Nothing else changes. |
| Comments.FailedUpvoteRestores | apps/web/components/feedback/comments/comment.tsx:96-114 | The optimistic flip followed by the error handler's flip is the identity. |
| Comments.ApplyServer | apps/web/components/feedback/comments/comment.tsx:86-93 | The count and flag come from the server, and every other field is unchanged. |
| Comments.ServerOverridesOptimistic | apps/web/components/feedback/comments/comment.tsx:86-114 | After a success the optimistic guess leaves no trace. |
| Comments.CollapsedAfter | apps/web/components/feedback/comments/comment.tsx:122-127 | After any number of accordion changes, a nested reply with more than three replies is collapsed exactly after an even number, any other comment after an odd number. |
| Comments.CollapseTwiceRestores | apps/web/components/feedback/comments/comment.tsx:266-268 | Two accordion changes restore the state. A top-level comment is collapsed exactly after an odd number of changes. |
| FilterCombobox.Unmatched | apps/web/components/dashboard/feedback/filter-combobox.tsx:132 | Every kept entry is in the selection and does not match the option case-insensitively, and every non-matching entry is kept. Order and repeats are fixed by `UnmatchedAppend`. |
| FilterCombobox.UnmatchedAppend | apps/web/components/dashboard/feedback/filter-combobox.tsx:132 | Removing the matches distributes over concatenation, and a single entry is kept exactly when it does not match. So the result is the selection with the matches taken out, in order and with repeats. |
| FilterCombobox.Toggle | apps/web/components/dashboard/feedback/filter-combobox.tsx:129-133 | A selected option leaves exactly the entries that do not match it. An unselected one is appended. A non-empty option is selected afterwards exactly when it was not before. |
| FilterCombobox.ToggleTwiceRestores | apps/web/components/dashboard/feedback/filter-combobox.tsx:129-133 | Toggling an absent non-empty option twice restores the selection. |
| FilterCombobox.QueryValue | apps/web/components/dashboard/feedback/filter-combobox.tsx:139 | An empty selection writes "". A non-empty comma-free selection splits back into itself. |
| FilterCombobox.Preset | apps/web/components/dashboard/feedback/filter-combobox.tsx:43-46 | A missing parameter gives `[]`, and only then is the result empty. Joining the result gives the parameter back. |
| FilterCombobox.PresetAfterWrite | apps/web/components/dashboard/feedback/filter-combobox.tsx:43-139 | A written non-empty comma-free selection reads back as itself. An emptied selection reads back as `[""]`, assuming the router writes the empty value rather than deleting the parameter. |
| FilterCombobox.Push | apps/web/components/dashboard/feedback/filter-combobox.tsx:84-86 | The new page is current, and the old stack is kept below it. |
| FilterCombobox.Pop | apps/web/components/dashboard/feedback/filter-combobox.tsx:74 | The top page is removed, and an empty stack stays empty. |
| FilterCombobox.PopUndoesPush | apps/web/components/dashboard/feedback/filter-combobox.tsx:74-85 | Popping after a push restores the stack. |
| FilterCombobox.KeyDown | apps/web/components/dashboard/feedback/filter-combobox.tsx:69-76 | Escape, or Backspace with an empty search, pops. Any other key leaves the stack alone. The stack only ever loses at most its top page. |
| FilterCombobox.KeyDownUndoesPush | apps/web/components/dashboard/feedback/filter-combobox.tsx:69-86 | Going back from a page just pushed returns the stack it was pushed on. Backspace with text in the search box keeps the page. |
| FilterCombobox.ReopenStartsAtRoot | apps/web/components/dashboard/feedback/filter-combobox.tsx:52-58 | Closing keeps the pages visited, and reopening starts at the root page whatever was showing. |
| WorkspaceApi.CreateWorkspace | apps/web/lib/api/workspace.ts:25-53 | Guard errors pass through. An invalid slug gives 400 before anything is written. A taken slug gives the insert's 500. A valid free slug inserts exactly the new workspace. A failure writes nothing. |
| WorkspaceApi.CreatedWorkspaceIsFound | apps/web/lib/api/workspace.ts:25-53 | With anonymous access allowed, a created workspace is then granted by the workspace guard under its slug, to the caller that created it. Under the default guard that caller is granted only with a membership row for the new id, and without one is refused with 403 `NOT_A_MEMBER`. |
| WorkspaceApi.ResolveImage | apps/web/lib/api/workspace.ts:78-95 | Only `data:image…` values are replaced by the upload URL. Other values pass through. |
| WorkspaceApi.UpdateWorkspace | apps/web/lib/api/workspace.ts:56-115 | A supplied slug is checked first, then a supplied redirect URL, each giving 400. The update succeeds exactly when both pass. Only the two image fields change, and only for inline images. Those are uploaded as `icon.png` and `opengraph.png` under the workspace's current slug. |
| WorkspaceApi.ImagelessUpdatePassesThrough | apps/web/lib/api/workspace.ts:78-115 | An update without inline images is written exactly as sent. |
| WorkspaceApi.Members | apps/web/lib/api/workspace.ts:192-198 | There is one member per row, in order, with the row's profile fields and `joined_at` equal to its `created_at`. |
| WorkspaceApi.MembersLoseNothing | apps/web/lib/api/workspace.ts:192-198 | The rows can be read back from the members. |
| WorkspaceApi.FindRow | apps/web/lib/api/workspace.ts:300 | The result is the first row with the key as id. It is none exactly when no row has it. |
| WorkspaceApi.Relabel | apps/web/lib/api/workspace.ts:299-311 | An entry without a row is dropped. Otherwise its key becomes the title, or stays the id for an empty title, and the count is kept. |
| WorkspaceApi.TopList | apps/web/lib/api/workspace.ts:333-338 | The list is no longer than its input and no entry is keyed `_root`. |
| WorkspaceApi.TopListFromEntries | apps/web/lib/api/workspace.ts:298-312 | Every listed entry is a relabelled input entry. |
| WorkspaceApi.TopListKeepsMatched | apps/web/lib/api/workspace.ts:298-334 | Every input entry that has a row and is not relabelled `_root` is listed. |
| WorkspaceApi.TopListKeepsOrder | apps/web/lib/api/workspace.ts:298-312 | Entries keep their relative order. |
| TitleProvider.FirstMatch | components/layout/title-provider.tsx:18 | The result is the first tab whose slug occurs in the path, or none when no tab matches. |
| TitleProvider.CurrentTitle | components/layout/title-provider.tsx:18-20 | No path or no match gives the initial title. Otherwise it is the first match's name, falling back to the initial title when that name is empty. The result is always the initial title or some tab's name. |
| TitleProvider.EmptySlugMatchesAnyPath | components/layout/title-provider.tsx:18 | A tab with an empty slug matches every path, so no later tab is reached. |
| TitleProvider.FirstTabWins | components/layout/title-provider.tsx:18-20 | A matching tab with a name decides the title, whatever follows it. |

## Left out

- **I/O.** Supabase queries, RPCs, cookies and headers are lookups in
  `Store.Db` or request fields. The Tinybird `fetch` calls of the analytics
  helper are left out: its timeseries and top lists are inputs. Storage
  uploads and base64 `decode` are the `upload` parameter.
- **Database failures.** The 500 errors a failing query or insert returns
  are not modelled, with two exceptions: the module-row `.single()` error in
  the upvote helper and the slug conflict on workspace insert. In the slug
  conflict the database message is the `conflict` parameter.
- **Application helpers.** `isValidEmail`, `isSlugValid` and `isValidUrl`
  are predicate parameters, and the session lookup is an input.
- **Database-assigned values.** Fresh ids and `created_at` are parameters.
  They are assumed unused. `FeedbackApi.CreateFeedback` does not require it,
  so a `freshFeedbackId` that is already a key overwrites that row in the
  model, where the database would assign a new id.
- **Creator membership.** `createWorkspace` writes no membership row for its
  creator, and neither does the model. Under the default guard the creator
  is therefore refused until a membership row is added outside this source,
  as `WorkspaceApi.CreatedWorkspaceIsFound` states.
- **FeedbackApi.UpdateFeedback: `tags: null`.** The patch's `tags` is either
  absent or a list. An explicit `null` is not representable. In the source it
  passes the `!== undefined` test and runs the tag check: 404 without
  workspace tags, otherwise a TypeError at `data.tags.forEach`
  (feedback.ts:321). The promise that an update never throws covers only
  absent or list-valued tags.
- **FeedbackFilters.FilterFeedback: trending sort.** It orders by a
  caller-supplied integer score. The source's floating-point score, with
  `new Date()` sampled per comparison and a division by zero for brand-new
  items, is not modelled.
- **FeedbackFilters.FilterFeedback: React memos.** The stale `sortedFeedback`
  memo keyed only on the sort parameter, and the fallback to the unsorted
  list when the sorted one is empty (feedback-filters.tsx:243-249), are not
  modelled. The result is the freshly sorted list.
- **Dates.** Date strings are integer milliseconds. A bound that does not
  parse (`Unparsed`) never rejects, as NaN comparisons are false.
- **UI.** React hooks, SWR plumbing, toasts and all JSX rendering are left
  out.
- **Workspace update write.** The write of `updateWorkspaceBySlug` and its
  upload 500s are left out. `WorkspaceApi.UpdateWorkspace` returns the
  update it would write.
- **Guarded read and delete helpers.** `getFeedbackById`,
  `deleteFeedbackById`, `getFeedbackUpvotersById`, `getAllFeedbackTags`,
  `getWorkspaceBySlug`, `deleteWorkspaceBySlug` and the feedback list
  queries are left out. They add no decision beyond their guard, which is
  modelled. The `has_upvoted` marking of the list helpers is modelled.
- **Post-insert work.** The work after a feedback insert (notification
  stubs after feedback.ts:231) is left out.
- **SSO secrets.** `createWorkspaceSSOSecret`, with its random secret and
  vault RPC, is left out.
- **Files without decision logic.** `apps/web/env.mjs`, `fetch-error.tsx`,
  `switch.tsx`, the invites route and the page components are not part of
  this model.
- **Case folding.** `Common.Lower` folds only the ASCII letters A-Z, where
  the source's `toLowerCase` folds all of Unicode. The status, search and
  tag matches of the feedback filter and the combobox's case-insensitive
  toggle therefore treat non-ASCII letters as case-sensitive: a search for
  "über" keeps a title "Über" in the application and drops it here.
- **FeedbackApi.NOT_ONE_ROW.** The upvote helper forwards the database
  library's `.single()` message when the workspace has no module row. The
  model fixes that message to the library's usual text; only the status
  500 comes from the source itself.
- **Membership columns.** The two membership checks query different columns
  (`member_id` at auth.ts:187, `user_id` at auth.ts:297). The model uses one
  membership relation for both.
- **Feedback lookup.** Feedback rows are a map keyed by id, so a row's `id`
  field is assumed to equal its key. Tag ids are assumed unique where a
  lemma needs it (`FeedbackApi.CreateThenDeleteRestoresTags` requires an
  unused fresh id).
- **WorkspaceApi.TopList.** Its own contract states only the bound and the
  absence of `_root`. What it keeps and in which order is stated by
  `TopListFromEntries`, `TopListKeepsMatched` and `TopListKeepsOrder`.
- **FilterCombobox.ToggleTwiceRestores.** It requires that no entry already
  matches the option. With a case-variant already present, the second
  toggle removes that entry too, so the selection is not restored.

=== FILE: auth.dfy ===
/** Request authentication and the three resource guards of `lib/auth.ts`.

    `CreateClient` turns the request's credentials into the `user` response the
    guards inspect: an `Authorization` header selects the API-key path and the
    session is not consulted, otherwise the session lookup is returned as is.
    Each guard then runs a fixed sequence of checks and stops at the first
    failure. A guard's outcome is a `Decision`: the context handed to the
    route handler, the `{ message, status }` error handed to it instead, or
    `Thrown` when the source reads a property of a missing object (a
    `TypeError` that escapes the handler). */
module Auth {
  import opened Common
  import opened Store

  /** The request's credentials: the raw `authorization` header and the
      outcome of the session lookup (`supabase.auth.getUser()`), which is
      I/O and therefore an input here. */
  datatype Request = Request(authHeader: Option<string>, session: SessionResult)

  /** `getUser()` result: the signed-in user, if any, and the auth error, if any. */
  datatype SessionResult = SessionResult(user: Option<User>, error: Option<ErrorProps>)

  /** What `user.data` holds: the session's `{ user }` object, or, on the
      API-key path, the key creator's profile row itself. */
  datatype UserData = SessionData(user: Option<User>) | ProfileData(profile: Profile)

  /** The `user` object `createClient` returns, in the two shapes it produces:
      the API-key path's rejections (`data: null` with an error) and every
      response that carries data (with or without an error). */
  datatype UserResponse =
    | KeyRejected(rejection: ErrorProps)
    | Resolved(data: UserData, error: Option<ErrorProps>)

  datatype Decision<+T> = Granted(ctx: T) | Denied(error: ErrorProps) | Thrown

  datatype WorkspaceContext = WorkspaceContext(user: Option<User>, workspace: Workspace, isPublic: bool)
  datatype BoardContext = BoardContext(user: Option<User>, board: Board)
  datatype FeedbackContext = FeedbackContext(user: Option<User>, feedback: Feedback, workspace: Workspace)

  const INVALID_API_KEY := ErrorProps("unauthorized, invalid api key.", 401)
  const MISSING_PERMISSIONS := ErrorProps("unauthorized, missing permissions.", 403)
  const USER_NOT_FOUND := ErrorProps("user not found.", 404)
  const WORKSPACE_NOT_FOUND := ErrorProps("workspace not found.", 404)
  const NOT_A_MEMBER := ErrorProps("unauthorized, user is not a member of the workspace.", 403)
  const SLUG_OR_BOARD_REQUIRED := ErrorProps("workspace slug or board id is required.", 400)
  const BOARD_NOT_FOUND := ErrorProps("feedback board not found.", 404)
  const FEEDBACK_NOT_FOUND := ErrorProps("feedback not found.", 404)
  const MISSING_SUB_CLAIM := "invalid claim: missing sub claim"
  const LOGIN_REQUIRED := "unauthorized, login required."

  // ---------------------------------------------------------------------------
  // createClient

  /** The header is present and non-empty (a truthy string). */
  predicate HasAuthHeader(req: Request)
  {
    req.authHeader.Some? && req.authHeader.value != ""
  }

  /** `header.split(' ')[1]`: the second space-separated token, undefined when
      the header holds no space. */
  function SecondToken(header: string): (r: Option<string>)
    ensures r.Some? <==> ' ' in header
    ensures r.Some? ==> ' ' !in r.value
    // the token is what follows the first space, up to the next space or the end
    ensures r.Some? ==> exists j :: 0 <= j < |header| && header[j] == ' ' && ' ' !in header[..j]
                                   && PieceAt(header, ' ', j + 1, r.value)
  {
    var parts := Split(header, ' ');
    assert ' ' in header <==> |RemoveChar(header, ' ')| < |header| by {
      if ' ' !in header {
        assert RemoveChar(header, ' ') == header;
      } else {
        RemoveCharShrinks(header, ' ');
      }
    }
    if |parts| >= 2 then
      assert exists j :: 0 <= j < |header| && header[j] == ' ' && ' ' !in header[..j]
                         && PieceAt(header, ' ', j + 1, parts[1]) by {
        SplitSecond(header, ' ');
      }
      Some(parts[1])
    else None
  }

  lemma {:induction false} RemoveCharShrinks(s: string, ch: char)
    requires ch in s
    ensures |RemoveChar(s, ch)| < |s|
    decreases |s|
  {
    if s[0] != ch {
      RemoveCharShrinks(s[1..], ch);
    } else if ch in s[1..] {
      RemoveCharShrinks(s[1..], ch);
    }
  }

  /** The API key the header names, when the lookup finds one with a truthy id. */
  function KeyFor(db: Db, header: string): (r: Option<ApiKey>)
    ensures r.Some? ==> r.value.id != ""
    ensures r.Some? ==> SecondToken(header).Some? && SecondToken(header).value in db.apiKeys
                        && r.value == db.apiKeys[SecondToken(header).value]
    ensures r.Some? <==> exists secret :: SecondToken(header) == Some(secret)
                                       && secret in db.apiKeys && db.apiKeys[secret].id != ""
  {
    match SecondToken(header)
    case None => None
    case Some(secret) =>
      if secret in db.apiKeys && db.apiKeys[secret].id != "" then Some(db.apiKeys[secret]) else None
  }

  /** `createClient(cType, isPublic)`: resolves the request's credentials. */
  function CreateClient(db: Db, req: Request, isPublic: bool): (r: UserResponse)
    // without a header the session lookup is returned untouched
    ensures !HasAuthHeader(req) ==> r == Resolved(SessionData(req.session.user), req.session.error)
    // with a header the session is never consulted
    ensures HasAuthHeader(req) ==> r.KeyRejected? || (r.data.ProfileData? && r.error.None?)
    // the key path's fixed error order: 401, then 403, then 404
    ensures HasAuthHeader(req) && KeyFor(db, req.authHeader.value).None? ==> r == KeyRejected(INVALID_API_KEY)
    ensures HasAuthHeader(req) && KeyFor(db, req.authHeader.value).Some?
            && KeyFor(db, req.authHeader.value).value.permission == PUBLIC_ACCESS && !isPublic
            ==> r == KeyRejected(MISSING_PERMISSIONS)
    ensures r == KeyRejected(USER_NOT_FOUND) ==>
              HasAuthHeader(req) && KeyFor(db, req.authHeader.value).Some?
              && (KeyFor(db, req.authHeader.value).value.permission != PUBLIC_ACCESS || isPublic)
              && ProfileById(db, KeyFor(db, req.authHeader.value).value.creatorId).None?
    // a key that passes both checks is resolved to its creator's profile, or 404 without one
    ensures HasAuthHeader(req) && KeyFor(db, req.authHeader.value).Some?
            && (KeyFor(db, req.authHeader.value).value.permission != PUBLIC_ACCESS || isPublic) ==>
              var profile := ProfileById(db, KeyFor(db, req.authHeader.value).value.creatorId);
              && (profile.None? ==> r == KeyRejected(USER_NOT_FOUND))
              && (profile.Some? ==> r == Resolved(ProfileData(profile.value), None))
    // a key that gets through yields its creator's profile
    ensures HasAuthHeader(req) && r.Resolved? ==>
              var key := KeyFor(db, req.authHeader.value);
              key.Some? && ProfileById(db, key.value.creatorId) == Some(r.data.profile)
              && (key.value.permission != PUBLIC_ACCESS || isPublic)
  {
    if HasAuthHeader(req) then
      match KeyFor(db, req.authHeader.value)
      case None => KeyRejected(INVALID_API_KEY)
      case Some(key) =>
        if key.permission == PUBLIC_ACCESS && !isPublic then KeyRejected(MISSING_PERMISSIONS)
        else match ProfileById(db, key.creatorId)
          case None => KeyRejected(USER_NOT_FOUND)
          case Some(profile) => Resolved(ProfileData(profile), None)
    else
      Resolved(SessionData(req.session.user), req.session.error)
  }

  // ---------------------------------------------------------------------------
  // The shared login gate

  /** The error a guard reports when the login gate rejects: the
      missing-sub-claim message is replaced and a falsy status (0 stands for
      absent) becomes 401. */
  function GateError(e: ErrorProps): (r: ErrorProps)
    ensures r.status != 0
    ensures e.status != 0 ==> r.status == e.status
    ensures r.message != MISSING_SUB_CLAIM
    ensures e.message != MISSING_SUB_CLAIM ==> r.message == e.message
    ensures e.status == 0 ==> r.status == 401
    ensures e.message == MISSING_SUB_CLAIM ==> r.message == LOGIN_REQUIRED
  {
    ErrorProps(if e.message == MISSING_SUB_CLAIM then LOGIN_REQUIRED else e.message,
               if e.status == 0 then 401 else e.status)
  }

  /** `(user.error !== null && requireLogin) || user.data === null`: the error
      to report when the gate rejects, `None` when it lets the request on. */
  function LoginGate(resp: UserResponse, requireLogin: bool): (r: Option<ErrorProps>)
    ensures r.Some? <==> resp.KeyRejected? || (resp.error.Some? && requireLogin)
    ensures resp.KeyRejected? ==> r == Some(GateError(resp.rejection))
    ensures resp.Resolved? && resp.error.Some? && requireLogin ==> r == Some(GateError(resp.error.value))
    ensures r.Some? ==> r.value.status != 0
  {
    match resp
    case KeyRejected(e) => Some(GateError(e))
    case Resolved(_, err) => if err.Some? && requireLogin then Some(GateError(err.value)) else None
  }

  /** `user.data.user`: the user handed to the route handler. On the API-key
      path `user.data` is a profile row, which has no `user` field, so the
      handler receives nothing. */
  function Caller(data: UserData): (r: Option<User>)
    ensures data.ProfileData? ==> r.None?
    ensures data.SessionData? ==> r == data.user
  {
    match data
    case SessionData(u) => u
    case ProfileData(_) => None
  }

  // ---------------------------------------------------------------------------
  // withWorkspaceAuth

  /** `withWorkspaceAuth(handler)(slug, cType, allowAnonAccess, requireLogin)`. */
  function WorkspaceAuth(db: Db, req: Request, slug: string, allowAnonAccess: bool, requireLogin: bool)
    : (r: Decision<WorkspaceContext>)
    // 1. the login gate comes first; the key path sees allowAnonAccess as isPublic
    ensures var gate := LoginGate(CreateClient(db, req, allowAnonAccess), requireLogin);
            gate.Some? ==> r == Denied(gate.value)
    // 2. then the workspace must exist, before any membership check
    ensures LoginGate(CreateClient(db, req, allowAnonAccess), requireLogin).None? && slug !in db.workspaces
            ==> r == Denied(WORKSPACE_NOT_FOUND)
    // 3. membership is checked only when anonymous access is not allowed
    ensures var resp := CreateClient(db, req, allowAnonAccess);
            LoginGate(resp, requireLogin).None? ==>
              (r == Denied(NOT_A_MEMBER) <==>
                 && !allowAnonAccess && slug in db.workspaces && Caller(resp.data).Some?
                 && !IsMember(db, db.workspaces[slug].id, Caller(resp.data).value.id))
    ensures r.Granted? ==>
              && slug in db.workspaces
              && r.ctx.workspace == db.workspaces[slug]
              && r.ctx.isPublic == allowAnonAccess
              && r.ctx.user == Caller(CreateClient(db, req, allowAnonAccess).data)
              && (!allowAnonAccess ==> r.ctx.user.Some? && IsMember(db, r.ctx.workspace.id, r.ctx.user.value.id))
    // with anonymous access an existing workspace is enough
    ensures (allowAnonAccess && slug in db.workspaces
             && LoginGate(CreateClient(db, req, allowAnonAccess), requireLogin).None?) ==>
              r == Granted(WorkspaceContext(Caller(CreateClient(db, req, allowAnonAccess).data),
                                            db.workspaces[slug], true))
    // without it a member is let through
    ensures (!allowAnonAccess && slug in db.workspaces
             && LoginGate(CreateClient(db, req, allowAnonAccess), requireLogin).None?) ==>
              var user := Caller(CreateClient(db, req, allowAnonAccess).data);
              user.Some? && IsMember(db, db.workspaces[slug].id, user.value.id) ==>
                r == Granted(WorkspaceContext(user, db.workspaces[slug], false))
    // a membership check without a user object throws
    ensures r.Thrown? <==>
              && !allowAnonAccess && slug in db.workspaces
              && LoginGate(CreateClient(db, req, allowAnonAccess), requireLogin).None?
              && Caller(CreateClient(db, req, allowAnonAccess).data).None?
  {
    var resp := CreateClient(db, req, allowAnonAccess);
    match LoginGate(resp, requireLogin)
    case Some(e) => Denied(e)
    case None =>
      var user := Caller(resp.data);
      if slug !in db.workspaces then Denied(WORKSPACE_NOT_FOUND)
      else
        var workspace := db.workspaces[slug];
        if allowAnonAccess then Granted(WorkspaceContext(user, workspace, allowAnonAccess))
        else if user.None? then Thrown
        else if !IsMember(db, workspace.id, user.value.id) then Denied(NOT_A_MEMBER)
        else Granted(WorkspaceContext(user, workspace, allowAnonAccess))
  }

  // ---------------------------------------------------------------------------
  // withFeedbackBoardAuth

  /** The board lookup of `withFeedbackBoardAuth`: by id when one is given,
      otherwise the default board of the workspace named by the slug.
      `Granted(None)` means the lookup ran but found no board. A workspace
      without a module row throws, because the source reads `.board` of the
      null result before it looks at the error. */
  function ResolveBoard(db: Db, boardId: Option<string>, workspaceSlug: Option<string>)
    : (r: Decision<Option<Board>>)
    ensures boardId.Some? ==> r.Granted? && (r.ctx.Some? <==> boardId.value in db.boards)
    ensures boardId.Some? && boardId.value in db.boards ==> r.ctx == Some(db.boards[boardId.value])
    ensures boardId.None? && (workspaceSlug.None? || workspaceSlug.value == "") ==> r == Denied(SLUG_OR_BOARD_REQUIRED)
    ensures boardId.None? && workspaceSlug.Some? && workspaceSlug.value != "" && workspaceSlug.value !in db.workspaces
            ==> r == Denied(WORKSPACE_NOT_FOUND)
    ensures boardId.None? && workspaceSlug.Some? && workspaceSlug.value != "" && workspaceSlug.value in db.workspaces ==>
              var wsId := db.workspaces[workspaceSlug.value].id;
              && (wsId in db.modules ==> r == Granted(db.modules[wsId].defaultBoard))
              && (wsId !in db.modules ==> r.Thrown?)
    ensures boardId.None? && r.Granted? ==>
              && workspaceSlug.Some? && workspaceSlug.value in db.workspaces
              && db.workspaces[workspaceSlug.value].id in db.modules
              && r.ctx == db.modules[db.workspaces[workspaceSlug.value].id].defaultBoard
  {
    if boardId.Some? then
      Granted(if boardId.value in db.boards then Some(db.boards[boardId.value]) else None)
    else if workspaceSlug.None? || workspaceSlug.value == "" then
      Denied(SLUG_OR_BOARD_REQUIRED)
    else if workspaceSlug.value !in db.workspaces then
      Denied(WORKSPACE_NOT_FOUND)
    else
      var workspace := db.workspaces[workspaceSlug.value];
      if workspace.id !in db.modules then Thrown
      else Granted(db.modules[workspace.id].defaultBoard)
  }

  /** `withFeedbackBoardAuth(handler)(boardId, workspaceSlug, cType, requireLogin)`.
      The client is created without `isPublic`. */
  function FeedbackBoardAuth(db: Db, req: Request, boardId: Option<string>, workspaceSlug: Option<string>,
                             requireLogin: bool): (r: Decision<BoardContext>)
    ensures var gate := LoginGate(CreateClient(db, req, false), requireLogin);
            gate.Some? ==> r == Denied(gate.value)
    ensures LoginGate(CreateClient(db, req, false), requireLogin).None? ==>
              match ResolveBoard(db, boardId, workspaceSlug)
              case Denied(e) => r == Denied(e)
              case Thrown => r.Thrown?
              case Granted(None) => r == Denied(BOARD_NOT_FOUND)
              case Granted(Some(board)) =>
                var user := Caller(CreateClient(db, req, false).data);
                // a public board needs no membership
                && (!board.isPrivate ==> r == Granted(BoardContext(user, board)))
                // a private board needs membership in the board's own workspace
                && (board.isPrivate && user.Some? && !IsMember(db, board.workspaceId, user.value.id)
                    ==> r == Denied(NOT_A_MEMBER))
                && (board.isPrivate && user.None? ==> r.Thrown?)
                && (board.isPrivate && user.Some? && IsMember(db, board.workspaceId, user.value.id)
                    ==> r == Granted(BoardContext(user, board)))
    ensures r.Granted? ==> r.ctx.board.isPrivate ==>
              r.ctx.user.Some? && IsMember(db, r.ctx.board.workspaceId, r.ctx.user.value.id)
  {
    var resp := CreateClient(db, req, false);
    match LoginGate(resp, requireLogin)
    case Some(e) => Denied(e)
    case None =>
      var user := Caller(resp.data);
      match ResolveBoard(db, boardId, workspaceSlug)
      case Denied(e) => Denied(e)
      case Thrown => Thrown
      case Granted(found) =>
        if found.None? then Denied(BOARD_NOT_FOUND)
        else
          var board := found.value;
          if !board.isPrivate then Granted(BoardContext(user, board))
          else if user.None? then Thrown
          else if !IsMember(db, board.workspaceId, user.value.id) then Denied(NOT_A_MEMBER)
          else Granted(BoardContext(user, board))
  }

  // ---------------------------------------------------------------------------
  // withFeedbackAuth

  /** `withFeedbackAuth(handler)(id, slug, cType, requireLogin)`. The client is
      created without `isPublic`; after the login gate only existence is
      checked, workspace first. */
  function FeedbackAuth(db: Db, req: Request, id: string, slug: string, requireLogin: bool)
    : (r: Decision<FeedbackContext>)
    ensures !r.Thrown?
    ensures var gate := LoginGate(CreateClient(db, req, false), requireLogin);
            gate.Some? ==> r == Denied(gate.value)
    ensures LoginGate(CreateClient(db, req, false), requireLogin).None? ==>
              && (slug !in db.workspaces ==> r == Denied(WORKSPACE_NOT_FOUND))
              && (slug in db.workspaces && id !in db.feedback ==> r == Denied(FEEDBACK_NOT_FOUND))
              && (slug in db.workspaces && id in db.feedback ==> r.Granted?)
    ensures r.Granted? ==>
              && slug in db.workspaces && id in db.feedback
              && r.ctx.workspace == db.workspaces[slug]
              && r.ctx.feedback == db.feedback[id]
              && r.ctx.user == Caller(CreateClient(db, req, false).data)
  {
    var resp := CreateClient(db, req, false);
    match LoginGate(resp, requireLogin)
    case Some(e) => Denied(e)
    case None =>
      if slug !in db.workspaces then Denied(WORKSPACE_NOT_FOUND)
      else if id !in db.feedback then Denied(FEEDBACK_NOT_FOUND)
      else Granted(FeedbackContext(Caller(resp.data), db.feedback[id], db.workspaces[slug]))
  }

  // ---------------------------------------------------------------------------
  // withUserAuth

  /** `withUserAuth(handler)(cType)`: rejects whenever `user.error` is set,
      otherwise hands on `user.data.user`. */
  function UserAuth(db: Db, req: Request): (r: Result<Option<User>>)
    ensures var resp := CreateClient(db, req, false);
            (r.Err? <==> resp.KeyRejected? || resp.error.Some?)
            && (r.Err? ==> r.error.status != 0)
            && (r.Ok? ==> r.value == Caller(resp.data))
            && (r.Err? ==> LoginGate(resp, true) == Some(r.error))
  {
    var resp := CreateClient(db, req, false);
    match LoginGate(resp, true)
    case Some(e) => Err(e)
    case None => Ok(Caller(resp.data))
  }

  // ---------------------------------------------------------------------------
  // Properties relating several calls

  /** Allowing anonymous access only widens `withWorkspaceAuth`: whatever it
      grants without it, it grants with it, to the same user and workspace. */
  lemma AnonAccessOnlyWidens(db: Db, req: Request, slug: string, requireLogin: bool)
    requires WorkspaceAuth(db, req, slug, false, requireLogin).Granted?
    ensures WorkspaceAuth(db, req, slug, true, requireLogin)
         == Granted(WorkspaceAuth(db, req, slug, false, requireLogin).ctx.(isPublic := true))
  {
  }

  /** `withUserAuth` rejects exactly the requests the feedback guards' login
      gate rejects when login is required, with the same error; a request it
      lets through is not held up by that gate. */
  lemma UserAuthMatchesLoginGate(db: Db, req: Request, id: string, slug: string,
                                 boardId: Option<string>, workspaceSlug: Option<string>)
    ensures UserAuth(db, req).Err? ==>
              && FeedbackAuth(db, req, id, slug, true) == Denied(UserAuth(db, req).error)
              && FeedbackBoardAuth(db, req, boardId, workspaceSlug, true) == Denied(UserAuth(db, req).error)
    ensures UserAuth(db, req).Ok? ==>
              && FeedbackAuth(db, req, id, slug, true) == FeedbackAuth(db, req, id, slug, false)
              && FeedbackBoardAuth(db, req, boardId, workspaceSlug, true)
              == FeedbackBoardAuth(db, req, boardId, workspaceSlug, false)
  {
  }

  /** With a header, the session lookup has no influence on any guard. */
  lemma HeaderHidesSession(db: Db, header: string, s1: SessionResult, s2: SessionResult, isPublic: bool)
    requires header != ""
    ensures CreateClient(db, Request(Some(header), s1), isPublic)
         == CreateClient(db, Request(Some(header), s2), isPublic)
  {
  }

  /** A public-access key never gets past the board and feedback guards,
      which create their client without `isPublic`. */
  lemma PublicKeyRejectedByBoardAndFeedbackGuards(db: Db, req: Request, boardId: Option<string>,
                                                  workspaceSlug: Option<string>, id: string, slug: string,
                                                  requireLogin: bool)
    requires HasAuthHeader(req)
    requires KeyFor(db, req.authHeader.value).Some?
    requires KeyFor(db, req.authHeader.value).value.permission == PUBLIC_ACCESS
    ensures FeedbackBoardAuth(db, req, boardId, workspaceSlug, requireLogin) == Denied(MISSING_PERMISSIONS)
    ensures FeedbackAuth(db, req, id, slug, requireLogin) == Denied(MISSING_PERMISSIONS)
  {
  }

  /** When a board id is given the slug plays no part. */
  lemma BoardIdOverridesSlug(db: Db, req: Request, boardId: string, s1: Option<string>, s2: Option<string>,
                             requireLogin: bool)
    ensures FeedbackBoardAuth(db, req, Some(boardId), s1, requireLogin)
         == FeedbackBoardAuth(db, req, Some(boardId), s2, requireLogin)
  {
  }

  /** The feedback guard consults neither memberships, boards nor module
      configuration: it does not check board privacy, and it does not check
      that the feedback belongs to the workspace named by the slug. */
  lemma FeedbackAuthIgnoresPrivacyAndOwnership(db: Db, req: Request, id: string, slug: string, requireLogin: bool,
                                               members: set<(string, string)>, boards: map<string, Board>,
                                               modules: map<string, ModuleConfig>)
    ensures FeedbackAuth(db, req, id, slug, requireLogin)
         == FeedbackAuth(db.(members := members, boards := boards, modules := modules), req, id, slug, requireLogin)
  {
  }

  /** A private board turns away a signed-in non-member with 403, whatever
      the login requirement. */
  lemma PrivateBoardRejectsNonMember(db: Db, req: Request, boardId: string, slug: Option<string>,
                                     requireLogin: bool, user: User)
    requires !HasAuthHeader(req)
    requires req.session == SessionResult(Some(user), None)
    requires boardId in db.boards && db.boards[boardId].isPrivate
    requires !IsMember(db, db.boards[boardId].workspaceId, user.id)
    ensures FeedbackBoardAuth(db, req, Some(boardId), slug, requireLogin) == Denied(NOT_A_MEMBER)
  {
  }

  /** A visitor without a session reads a public board when login is not required. */
  lemma AnonymousReadsPublicBoard(db: Db, req: Request, boardId: string, slug: Option<string>)
    requires !HasAuthHeader(req) && req.session.user.None?
    requires boardId in db.boards && !db.boards[boardId].isPrivate
    ensures FeedbackBoardAuth(db, req, Some(boardId), slug, false) == Granted(BoardContext(None, db.boards[boardId]))
  {
  }
}

=== FILE: comment.dfy ===
/** The pure parts of a feedback comment (`comment.tsx`): the relative
    timestamp, the optimistic upvote and its rollback, and the default
    collapse of long reply threads. */
module Comments {
  import opened Common

  /** One step of the relative-time ladder: its name and its length in
      milliseconds. */
  datatype TimeUnit = TimeUnit(name: string, ms: int)

  /** From the largest unit down; a year is 365 days and a month 30 days. */
  const UNITS: seq<TimeUnit> := [
    TimeUnit("year", 1000 * 60 * 60 * 24 * 365),
    TimeUnit("month", 1000 * 60 * 60 * 24 * 30),
    TimeUnit("day", 1000 * 60 * 60 * 24),
    TimeUnit("hour", 1000 * 60 * 60),
    TimeUnit("minute", 1000 * 60),
    TimeUnit("second", 1000)]

  /** The answer of `formatTimeAgo` before it is rendered as text. */
  datatype TimeAgo = Ago(value: int, unit: string) | JustNow

  /** Unit `k` is the largest one that fits into `diff` at least once. */
  ghost predicate Chosen(diff: int, k: int)
  {
    0 <= k < |UNITS| && diff >= UNITS[k].ms && forall j :: 0 <= j < k ==> diff < UNITS[j].ms
  }

  /** `formatTimeAgo` for an age of `diff` milliseconds (now minus creation;
      the clock is the caller's). The loop takes `Math.floor(diff / unit)`
      for each unit in turn and answers with the first that is at least 1;
      `/` rounds down here as `Math.floor` does, the divisor being positive. */
  method FormatTimeAgo(diff: int) returns (r: TimeAgo)
    ensures r.JustNow? <==> diff < 1000
    ensures r.Ago? ==> exists k :: Chosen(diff, k) && r == Ago(diff / UNITS[k].ms, UNITS[k].name)
    ensures r.Ago? ==> r.value >= 1
  {
    var i := 0;
    while i < |UNITS|
      invariant 0 <= i <= |UNITS|
      invariant forall j :: 0 <= j < i ==> diff < UNITS[j].ms
    {
      var value := diff / UNITS[i].ms;
      if value >= 1 {
        assert Chosen(diff, i);
        return Ago(value, UNITS[i].name);
      }
      i := i + 1;
    }
    assert diff < UNITS[5].ms;
    return JustNow;
  }

  /** The decimal digits of `n`, as `${n}` prints a non-negative integer. */
  function Decimal(n: nat): (r: string)
    ensures |r| >= 1
    ensures forall k :: 0 <= k < |r| ==> '0' <= r[k] <= '9'
    ensures n >= 10 ==> r[0] != '0'
    ensures n < 10 ==> |r| == 1
  {
    if n < 10 then [(48 + n) as char] else Decimal(n / 10) + [(48 + n % 10) as char]
  }

  /** Reads a string of decimal digits back as a number. */
  function DigitsValue(s: string): (r: nat)
    requires forall k :: 0 <= k < |s| ==> '0' <= s[k] <= '9'
  {
    if |s| == 0 then 0 else DigitsValue(s[..|s| - 1]) * 10 + (s[|s| - 1] as int - 48)
  }

  lemma {:induction false} DecimalRoundTrip(n: nat)
    ensures DigitsValue(Decimal(n)) == n
    decreases n
  {
    if n >= 10 {
      DecimalRoundTrip(n / 10);
      var d := Decimal(n);
      assert d[..|d| - 1] == Decimal(n / 10);
    }
  }

  /** `d` is how a count is printed: decimal digits without a leading zero
      that read back as `n`. */
  ghost predicate PrintsCount(d: string, n: nat)
  {
    && |d| >= 1 && (forall k :: 0 <= k < |d| ==> '0' <= d[k] <= '9')
    && (|d| == 1 || d[0] != '0')
    && DigitsValue(d) == n
  }

  lemma DecimalPrintsCount(n: nat)
    ensures PrintsCount(Decimal(n), n)
  {
    DecimalRoundTrip(n);
  }

  /** The rendered text: `${value} ${unit}${value > 1 ? 's' : ''} ago`, or
      `just now`. */
  function Text(t: TimeAgo): (r: string)
    requires t.Ago? ==> t.value >= 1
    ensures t.JustNow? <==> r == "just now"
    // the plural `s` sits right before " ago", for units not ending in `s`
    ensures t.Ago? && t.unit != "" && t.unit[|t.unit| - 1] != 's' ==>
              |r| >= 5 && r[|r| - 4..] == " ago" && (r[|r| - 5] == 's' <==> t.value > 1)
    // the text opens with the digits of the count, then a space and the unit
    // with no leading zero, and followed by nothing but the plural `s` and " ago"
    ensures t.Ago? ==> exists d :: && PrintsCount(d, t.value) && StartsWith(r, d + " " + t.unit)
                                   && |r| == |d| + 1 + |t.unit| + (if t.value > 1 then 1 else 0) + 4
  {
    match t
    case JustNow => "just now"
    case Ago(value, unit) =>
      var head := Decimal(value) + " " + unit + (if value > 1 then "s" else "");
      var r := head + " ago";
      assert r[|r| - 4..] == " ago" && r[|r| - 5] == head[|head| - 1];
      assert unit != "" && value <= 1 ==> head[|head| - 1] == unit[|unit| - 1];
      assert StartsWith(r, Decimal(value) + " " + unit) by {
        assert r == (Decimal(value) + " " + unit) + ((if value > 1 then "s" else "") + " ago");
      }
      assert PrintsCount(Decimal(value), value) by {
        DecimalPrintsCount(value);
      }
      r
  }

  // ---------------------------------------------------------------------------
  // Upvotes

  /** The comment state the component keeps. */
  datatype Comment = Comment(
    id: string,
    content: string,
    upvotes: int,
    hasUpvoted: bool,
    replyToId: Option<string>,
    replies: Option<seq<Comment>>)

  /** The optimistic update, which the error handler applies once more to
      undo it: the flag flips and the count follows it. */
  function Flip(c: Comment): (r: Comment)
    ensures r.hasUpvoted == !c.hasUpvoted
    ensures r.upvotes == c.upvotes + (if r.hasUpvoted then 1 else -1)
    ensures r == c.(upvotes := r.upvotes, hasUpvoted := r.hasUpvoted)
  {
    c.(upvotes := c.upvotes + (if c.hasUpvoted then -1 else 1), hasUpvoted := !c.hasUpvoted)
  }

  /** A failed upvote rolls the optimistic update back exactly. */
  lemma FailedUpvoteRestores(c: Comment)
    ensures Flip(Flip(c)) == c
  {
  }

  /** On success the server's count and flag replace the local ones. */
  function ApplyServer(c: Comment, upvotes: int, hasUpvoted: bool): (r: Comment)
    ensures r.upvotes == upvotes && r.hasUpvoted == hasUpvoted
    ensures r == c.(upvotes := r.upvotes, hasUpvoted := r.hasUpvoted)
  {
    c.(upvotes := upvotes, hasUpvoted := hasUpvoted)
  }

  /** After success the optimistic guess leaves no trace. */
  lemma ServerOverridesOptimistic(c: Comment, upvotes: int, hasUpvoted: bool)
    ensures ApplyServer(Flip(c), upvotes, hasUpvoted) == ApplyServer(c, upvotes, hasUpvoted)
  {
  }

  // ---------------------------------------------------------------------------
  // Reply threads

  /** A nested reply with more than three replies starts collapsed. */
  predicate CollapsedByDefault(c: Comment)
  {
    c.replies.Some? && |c.replies.value| > 3 && c.replyToId.Some?
  }

  /** The collapse state once the component has mounted: the effect only
      ever sets it, starting from expanded. */
  function InitialCollapsed(c: Comment): (r: bool)
    ensures r <==> c.replyToId.Some? && c.replies.Some? && |c.replies.value| >= 4
  {
    CollapsedByDefault(c)
  }

  /** The accordion's `onValueChange`: every change flips the state. */
  function ToggleCollapsed(collapsed: bool): (r: bool)
    ensures r != collapsed
  {
    !collapsed
  }

  /** The collapse state after the accordion has reported `changes` value
      changes since mounting: a thread that starts collapsed is collapsed
      after an even number of changes, any other after an odd number. */
  function CollapsedAfter(c: Comment, changes: nat): (r: bool)
    ensures r <==> (CollapsedByDefault(c) <==> changes % 2 == 0)
  {
    if changes == 0 then InitialCollapsed(c) else ToggleCollapsed(CollapsedAfter(c, changes - 1))
  }

  /** Two changes in a row restore the state; a top-level comment or a short
      thread is collapsed exactly after an odd number of changes. */
  lemma CollapseTwiceRestores(c: Comment, changes: nat)
    ensures CollapsedAfter(c, changes + 2) == CollapsedAfter(c, changes)
    ensures c.replyToId.None? ==> (CollapsedAfter(c, changes) <==> changes % 2 == 1)
  {
  }
}

=== FILE: common.dfy ===
/** Shared vocabulary of the model: optional values, the `{ message, status }`
    error shape every API helper returns, and the handful of JavaScript string
    operations the application relies on (`toLowerCase`, `includes`,
    `startsWith`, `split`, `join`, `replaceAll`). */
module Common {

  datatype Option<+T> = None | Some(value: T)

  /** The `{ message, status }` object returned in the `error` slot of every
      API helper and guard. */
  datatype ErrorProps = ErrorProps(message: string, status: int)

  /** The `{ data, error }` pair of an API helper, with exactly one side set. */
  datatype Result<+T> = Ok(value: T) | Err(error: ErrorProps)

  // ---------------------------------------------------------------------------
  // Case folding

  /** `toLowerCase` restricted to ASCII: upper-case Latin letters map to their
      lower-case form, every other character is unchanged. */
  function Lower(c: char): (r: char)
    ensures 'A' <= c <= 'Z' ==> r as int == c as int + 32
    ensures !('A' <= c <= 'Z') ==> r == c
    ensures !('A' <= r <= 'Z')
  {
    if 'A' <= c <= 'Z' then (c as int + 32) as char else c
  }

  function LowerStr(s: string): (r: string)
    ensures |r| == |s|
    ensures forall i :: 0 <= i < |s| ==> r[i] == Lower(s[i])
  {
    seq(|s|, i requires 0 <= i < |s| => Lower(s[i]))
  }

  /** Comparison of two strings after lower-casing both. */
  predicate SameIgnoringCase(a: string, b: string)
  {
    LowerStr(a) == LowerStr(b)
  }

  /** A JavaScript-truthy optional string: present and non-empty. */
  predicate Truthy(s: Option<string>)
  {
    s.Some? && s.value != ""
  }

  /** No name holds a comma, so a comma-joined list splits back into it. */
  predicate CommaFree(names: seq<string>)
  {
    forall k :: 0 <= k < |names| ==> ',' !in names[k]
  }

  // ---------------------------------------------------------------------------
  // Prefixes and substrings

  predicate StartsWith(s: string, prefix: string)
  {
    |prefix| <= |s| && s[..|prefix|] == prefix
  }

  /** `sub` occurs in `s` starting at position `i`. */
  ghost predicate OccursAt(s: string, sub: string, i: int)
  {
    0 <= i && i + |sub| <= |s| && s[i..i + |sub|] == sub
  }

  /** `s.includes(sub)`, computed by trying every start position in turn. */
  function Includes(s: string, sub: string): (r: bool)
    ensures r <==> exists i :: OccursAt(s, sub, i)
    decreases |s|
  {
    if StartsWith(s, sub) then
      assert OccursAt(s, sub, 0);
      true
    else if |s| == 0 then
      assert forall i :: !OccursAt(s, sub, i);
      false
    else
      var rest := Includes(s[1..], sub);
      assert forall i :: OccursAt(s[1..], sub, i) <==> OccursAt(s, sub, i + 1);
      assert !OccursAt(s, sub, 0);
      assert rest ==> exists i :: OccursAt(s, sub, i) by {
        if rest {
          var j :| OccursAt(s[1..], sub, j);
          assert OccursAt(s, sub, j + 1);
        }
      }
      assert (exists i :: OccursAt(s, sub, i)) ==> rest by {
        if exists i :: OccursAt(s, sub, i) {
          var i :| OccursAt(s, sub, i);
          assert i != 0;
          assert OccursAt(s[1..], sub, i - 1);
        }
      }
      rest
  }

  // ---------------------------------------------------------------------------
  // Filtering

  /** `xs.filter(keep)`: the elements that pass, in their original order. */
  function Where<T>(xs: seq<T>, keep: T -> bool): (r: seq<T>)
    ensures |r| <= |xs|
    ensures forall i :: 0 <= i < |r| ==> r[i] in xs && keep(r[i])
    ensures forall i :: 0 <= i < |xs| && keep(xs[i]) ==> xs[i] in r
  {
    if |xs| == 0 then []
    else if keep(xs[0]) then [xs[0]] + Where(xs[1..], keep)
    else Where(xs[1..], keep)
  }

  /** Filtering distributes over concatenation, so it keeps relative order. */
  lemma {:induction false} WhereAppend<T>(xs: seq<T>, ys: seq<T>, keep: T -> bool)
    ensures Where(xs + ys, keep) == Where(xs, keep) + Where(ys, keep)
    decreases |xs|
  {
    if |xs| > 0 {
      assert (xs + ys)[1..] == xs[1..] + ys;
      WhereAppend(xs[1..], ys, keep);
    } else {
      assert xs + ys == ys;
    }
  }

  lemma {:induction false} WhereKeepsAll<T>(xs: seq<T>, keep: T -> bool)
    requires forall k :: 0 <= k < |xs| ==> keep(xs[k])
    ensures Where(xs, keep) == xs
    decreases |xs|
  {
    if |xs| > 0 {
      WhereKeepsAll(xs[1..], keep);
      assert xs == [xs[0]] + xs[1..];
    }
  }

  lemma {:induction false} WhereDropsAll<T>(xs: seq<T>, keep: T -> bool)
    requires forall k :: 0 <= k < |xs| ==> !keep(xs[k])
    ensures Where(xs, keep) == []
    decreases |xs|
  {
    if |xs| > 0 {
      WhereDropsAll(xs[1..], keep);
    }
  }

  // ---------------------------------------------------------------------------
  // Character removal

  /** `s.replaceAll(ch, '')`: every occurrence of `ch` removed, the other
      characters kept in order. */
  function RemoveChar(s: string, ch: char): (r: string)
    ensures ch !in r
    ensures |r| <= |s|
    ensures ch !in s ==> r == s
    ensures forall c :: c != ch ==> (c in r <==> c in s)
  {
    if |s| == 0 then []
    else if s[0] == ch then RemoveChar(s[1..], ch)
    else [s[0]] + RemoveChar(s[1..], ch)
  }

  /** Removal works piecewise over a concatenation. */
  lemma {:induction false} RemoveCharAppend(a: string, b: string, ch: char)
    ensures RemoveChar(a + b, ch) == RemoveChar(a, ch) + RemoveChar(b, ch)
    decreases |a|
  {
    if |a| == 0 {
      assert a + b == b;
    } else {
      assert (a + b)[1..] == a[1..] + b;
      RemoveCharAppend(a[1..], b, ch);
    }
  }

  // ---------------------------------------------------------------------------
  // split / join

  /** `s.split(sep)` for a one-character separator: the maximal runs between
      separators, so there is always at least one piece ("" splits to [""]). */
  function Split(s: string, sep: char): (r: seq<string>)
    ensures |r| >= 1
    ensures forall k :: 0 <= k < |r| ==> sep !in r[k]
    ensures |r| == 1 + |s| - |RemoveChar(s, sep)|
  {
    if |s| == 0 then [""]
    else if s[0] == sep then [""] + Split(s[1..], sep)
    else
      var rest := Split(s[1..], sep);
      [[s[0]] + rest[0]] + rest[1..]
  }

  /** A character other than the separator joins the first piece. */
  lemma SplitHeadStep(s: string, sep: char)
    requires |s| > 0 && s[0] != sep
    ensures Split(s, sep)[0] == [s[0]] + Split(s[1..], sep)[0]
  {
  }

  /** A prefix of the tail, with the first element in front, is a prefix of
      the whole sequence. */
  lemma PrefixCons<T>(s: seq<T>, h: seq<T>)
    requires |s| > 0 && |h| < |s| && h == s[1..][..|h|]
    ensures [s[0]] + h == s[..|h| + 1]
    ensures |h| + 1 < |s| ==> s[|h| + 1] == s[1..][|h|]
  {
    assert s[..|h| + 1] == [s[0]] + s[1..][..|h|];
  }

  /** The first piece of a split is the part before the first separator. */
  lemma {:induction false} SplitHead(s: string, sep: char)
    ensures |Split(s, sep)[0]| <= |s|
    ensures Split(s, sep)[0] == s[..|Split(s, sep)[0]|]
    ensures |Split(s, sep)[0]| < |s| ==> s[|Split(s, sep)[0]|] == sep
    decreases |s|
  {
    if |s| == 0 {
      assert Split(s, sep)[0] == "";
    } else if s[0] == sep {
      assert Split(s, sep)[0] == "";
    } else {
      SplitHeadStep(s, sep);
      SplitHead(s[1..], sep);
      PrefixCons(s, Split(s[1..], sep)[0]);
    }
  }

  /** `tok` is the piece of `s` that starts at position `i`: it runs up to the
      next `sep` or to the end of `s`. */
  ghost predicate PieceAt(s: string, sep: char, i: int, tok: string)
  {
    0 <= i && i + |tok| <= |s| && s[i..i + |tok|] == tok && sep !in tok
    && (i + |tok| == |s| || s[i + |tok|] == sep)
  }

  /** The second piece of a split is the piece that follows the first separator. */
  lemma {:induction false} SplitSecond(s: string, sep: char)
    requires |Split(s, sep)| >= 2
    ensures exists j :: 0 <= j < |s| && s[j] == sep && sep !in s[..j] && PieceAt(s, sep, j + 1, Split(s, sep)[1])
  {
    SplitHead(s, sep);
    var h := Split(s, sep)[0];
    var j := |h|;
    if j == |s| {
      assert false;
    }
    var tail := s[j + 1..];
    assert s == h + [sep] + tail;
    SplitCons(h, sep, tail);
    var t := Split(tail, sep)[0];
    assert Split(s, sep)[1] == t;
    PieceOfTail(s, j, sep, t);
  }

  lemma {:induction false} PieceOfTail(s: string, j: nat, sep: char, t: string)
    requires j < |s|
    requires t == Split(s[j + 1..], sep)[0]
    ensures PieceAt(s, sep, j + 1, t)
  {
    var tail := s[j + 1..];
    SplitHead(tail, sep);
    assert s[j + 1..j + 1 + |t|] == tail[..|t|];
  }

  /** `xs.join(sep)`. */
  function Join(xs: seq<string>, sep: string): (r: string)
    ensures |xs| == 0 ==> r == ""
    ensures |xs| == 1 ==> r == xs[0]
  {
    if |xs| == 0 then ""
    else if |xs| == 1 then xs[0]
    else xs[0] + sep + Join(xs[1..], sep)
  }

  /** Splitting a piece that holds no separator, followed by one, peels that
      piece off. */
  lemma {:induction false} SplitCons(x: string, sep: char, y: string)
    requires sep !in x
    ensures Split(x + [sep] + y, sep) == [x] + Split(y, sep)
    decreases |x|
  {
    var s := x + [sep] + y;
    if |x| == 0 {
      assert s == [sep] + y;
      assert s[1..] == y;
    } else {
      assert s[0] == x[0];
      assert s[1..] == x[1..] + [sep] + y;
      SplitCons(x[1..], sep, y);
      assert [x[0]] + x[1..] == x;
    }
  }

  lemma {:induction false} SplitNoSeparator(x: string, sep: char)
    requires sep !in x
    ensures Split(x, sep) == [x]
    decreases |x|
  {
    if |x| > 0 {
      assert x[1..] == x[1..];
      SplitNoSeparator(x[1..], sep);
      assert [x[0]] + x[1..] == x;
    }
  }

  /** `join` then `split` is the identity on non-empty lists whose elements
      hold no separator. */
  lemma {:induction false} SplitJoin(xs: seq<string>, sep: char)
    requires |xs| >= 1
    requires forall k :: 0 <= k < |xs| ==> sep !in xs[k]
    ensures Split(Join(xs, [sep]), sep) == xs
    decreases |xs|
  {
    if |xs| == 1 {
      SplitNoSeparator(xs[0], sep);
    } else {
      SplitJoin(xs[1..], sep);
      SplitCons(xs[0], sep, Join(xs[1..], [sep]));
      assert [xs[0]] + xs[1..] == xs;
    }
  }

  /** `split` then `join` gives back the string, for every string. */
  lemma {:induction false} JoinSplit(s: string, sep: char)
    ensures Join(Split(s, sep), [sep]) == s
    decreases |s|
  {
    if |s| > 0 {
      JoinSplit(s[1..], sep);
      var rest := Split(s[1..], sep);
      if s[0] == sep {
        assert Split(s, sep) == [""] + rest;
        assert ([""] + rest)[1..] == rest;
        assert [s[0]] + s[1..] == s;
      } else {
        var r := Split(s, sep);
        assert r == [[s[0]] + rest[0]] + rest[1..];
        if |rest| == 1 {
          assert r == [[s[0]] + rest[0]];
          assert [s[0]] + s[1..] == s;
        } else {
          assert r[1..] == rest[1..];
          assert Join(rest, [sep]) == rest[0] + [sep] + Join(rest[1..], [sep]);
          assert [s[0]] + s[1..] == s;
        }
      }
    }
  }
}

=== FILE: feedback_api.dfy ===
/** The feedback helpers of `lib/api/feedback.ts`: tag validation and the
    derivation of `raw_tags`, the widget-profile resolution, the content
    check, the field-wise update merge, upvote toggling, `has_upvoted`
    marking and the feedback-tag rules. Every helper runs behind one of the
    guards of `Auth` and returns the database it leaves behind together with
    its answer, because some of them write before they fail. */
module FeedbackApi {
  import opened Common
  import opened Store
  import opened Auth

  const NO_WORKSPACE_TAGS := ErrorProps("no tags found for workspace.", 404)
  const INVALID_TAGS_PREFIX := "invalid tag(s): "
  const INVALID_EMAIL := ErrorProps("user.email is required and must be a valid email.", 400)
  const EMPTY_CONTENT := ErrorProps("feedback content cannot be empty.", 400)
  const ANON_UPVOTING_OFF := ErrorProps("anonymous upvoting is not allowed.", 403)
  const DUPLICATE_TAG := ErrorProps("tag with same name already exists.", 400)
  const TAG_NOT_FOUND := ErrorProps("tag not found.", 404)
  /** What `.single()` reports when the query matched no row; the upvote
      helper passes it on with status 500 when the workspace has no module
      configuration. */
  const NOT_ONE_ROW := ErrorProps("JSON object requested, multiple (or no) rows returned", 500)

  /** A helper's answer and the database after it ran. */
  datatype Stored<+T> = Stored(db: Db, result: Decision<T>)

  // ---------------------------------------------------------------------------
  // Tag validation and raw_tags

  /** The tags of one workspace, in table order. */
  function WorkspaceTags(db: Db, workspaceId: string): (r: seq<Tag>)
    ensures forall i :: 0 <= i < |r| ==> r[i] in db.tags && r[i].workspaceId == workspaceId
    ensures forall i :: 0 <= i < |db.tags| && db.tags[i].workspaceId == workspaceId ==> db.tags[i] in r
  {
    Where(db.tags, (t: Tag) => t.workspaceId == workspaceId)
  }

  predicate HasTagId(tags: seq<Tag>, id: string)
  {
    exists t :: t in tags && t.id == id
  }

  /** The requested ids that no workspace tag carries, in request order. */
  function InvalidTagIds(tags: seq<Tag>, requested: seq<string>): (r: seq<string>)
    ensures forall i :: 0 <= i < |r| ==> r[i] in requested && !HasTagId(tags, r[i])
    ensures forall i :: 0 <= i < |requested| && !HasTagId(tags, requested[i]) ==> requested[i] in r
    ensures |r| == 0 <==> forall i :: 0 <= i < |requested| ==> HasTagId(tags, requested[i])
  {
    var r := Where(requested, (id: string) => !HasTagId(tags, id));
    assert |r| > 0 ==> r[0] in r;
    r
  }

  /** The invalid ids of a longer request extend those of its prefix, so the
      error message lists them in the order they were asked for. */
  lemma InvalidTagIdsInRequestOrder(tags: seq<Tag>, first: seq<string>, rest: seq<string>)
    ensures InvalidTagIds(tags, first + rest) == InvalidTagIds(tags, first) + InvalidTagIds(tags, rest)
  {
    WhereAppend(first, rest, (id: string) => !HasTagId(tags, id));
  }

  /** The workspace tags whose id was requested, in workspace-tag order,
      projected to `{ name, color }`. */
  function RawTagsFor(tags: seq<Tag>, requested: seq<string>): (r: seq<RawTag>)
    ensures |r| <= |tags|
    ensures forall i :: 0 <= i < |r| ==> exists t :: t in tags && t.id in requested && r[i] == RawTag(t.name, t.color)
    ensures forall t :: t in tags && t.id in requested ==> RawTag(t.name, t.color) in r
    decreases |tags|
  {
    if |tags| == 0 then []
    else
      var rest := RawTagsFor(tags[1..], requested);
      assert forall i :: 0 <= i < |rest| ==>
               exists t :: t in tags && t.id in requested && rest[i] == RawTag(t.name, t.color) by {
        forall i | 0 <= i < |rest|
          ensures exists t :: t in tags && t.id in requested && rest[i] == RawTag(t.name, t.color)
        {
          var t :| t in tags[1..] && t.id in requested && rest[i] == RawTag(t.name, t.color);
          assert t in tags;
        }
      }
      assert forall t :: t in tags ==> t == tags[0] || t in tags[1..];
      if tags[0].id in requested then [RawTag(tags[0].name, tags[0].color)] + rest else rest
  }

  /** `raw_tags` depends only on which ids were requested, not on their order
      or repetition. */
  lemma {:induction false} RawTagsDependOnIdSetOnly(tags: seq<Tag>, a: seq<string>, b: seq<string>)
    requires forall id :: id in a <==> id in b
    ensures RawTagsFor(tags, a) == RawTagsFor(tags, b)
    decreases |tags|
  {
    if |tags| > 0 {
      RawTagsDependOnIdSetOnly(tags[1..], a, b);
    }
  }

  /** Requesting the same ids twice yields no duplicate entries. */
  lemma DuplicateRequestsAddNothing(tags: seq<Tag>, requested: seq<string>)
    ensures RawTagsFor(tags, requested + requested) == RawTagsFor(tags, requested)
  {
    RawTagsDependOnIdSetOnly(tags, requested + requested, requested);
  }

  /** The workspace-tag order is kept: the entries of a longer tag list extend
      those of its prefix. */
  lemma {:induction false} RawTagsInWorkspaceOrder(first: seq<Tag>, rest: seq<Tag>, requested: seq<string>)
    ensures RawTagsFor(first + rest, requested) == RawTagsFor(first, requested) + RawTagsFor(rest, requested)
    decreases |first|
  {
    if |first| == 0 {
      assert first + rest == rest;
    } else {
      assert (first + rest)[1..] == first[1..] + rest;
      RawTagsInWorkspaceOrder(first[1..], rest, requested);
    }
  }

  /** The tag check shared by create and update: no workspace tags is 404,
      any unknown id is 400 naming every unknown id, otherwise the requested
      tags as `raw_tags`. */
  function ValidateTags(tags: seq<Tag>, requested: seq<string>): (r: Result<seq<RawTag>>)
    ensures |tags| == 0 ==> r == Err(NO_WORKSPACE_TAGS)
    ensures |tags| > 0 && |InvalidTagIds(tags, requested)| > 0 ==>
              r == Err(ErrorProps(INVALID_TAGS_PREFIX + Join(InvalidTagIds(tags, requested), ", "), 400))
    ensures r.Ok? <==> |tags| > 0 && forall i :: 0 <= i < |requested| ==> HasTagId(tags, requested[i])
    ensures r.Ok? ==> r.value == RawTagsFor(tags, requested)
  {
    if |tags| == 0 then Err(NO_WORKSPACE_TAGS)
    else
      var invalid := InvalidTagIds(tags, requested);
      if |invalid| > 0 then Err(ErrorProps(INVALID_TAGS_PREFIX + Join(invalid, ", "), 400))
      else Ok(RawTagsFor(tags, requested))
  }

  // ---------------------------------------------------------------------------
  // Widget profiles

  /** The `user` object a widget submits with its feedback; an empty email
      stands for the falsy one. */
  datatype UserInput = UserInput(email: string, fullName: Option<string>)

  /** `email.split('@')[0]`: the part before the first `@`. */
  function LocalPart(email: string): (r: string)
    ensures '@' !in r
    ensures |r| <= |email| && r == email[..|r|]
    ensures |r| < |email| ==> email[|r|] == '@'
  {
    SplitHead(email, '@');
    Split(email, '@')[0]
  }

  /** `email.replace('@', '+widget@')`: `+widget` goes in front of the first
      `@` only; an address without `@` is left as it is. */
  function WidgetEmail(email: string): (r: string)
    ensures '@' !in email ==> r == email
    ensures '@' in email ==> exists i :: 0 <= i < |email| && email[i] == '@' && '@' !in email[..i]
                                        && r == email[..i] + "+widget" + email[i..]
  {
    var head := LocalPart(email);
    if |head| == |email| then
      assert head == email;
      email
    else
      assert email[|head|] == '@' && email[..|head|] == head;
      head + "+widget" + email[|head|..]
  }

  predicate HasProfile(profiles: seq<Profile>, id: string, email: string)
  {
    exists p :: p in profiles && p.id == id && p.email == email
  }

  /** `.eq('email', email)` on the profile table. */
  function WithEmail(profiles: seq<Profile>, email: string): (r: seq<Profile>)
    ensures forall i :: 0 <= i < |r| ==> r[i] in profiles && r[i].email == email
  {
    Where(profiles, (p: Profile) => p.email == email)
  }

  /** `.update({ full_name }).eq('id', id)`. */
  function Rename(profiles: seq<Profile>, id: string, name: string): (r: seq<Profile>)
    ensures |r| == |profiles|
    ensures forall i :: 0 <= i < |r| ==> r[i].id == profiles[i].id && r[i].email == profiles[i].email
    ensures forall i :: 0 <= i < |r| && profiles[i].id == id ==> r[i].fullName == name
    ensures forall i :: 0 <= i < |r| && profiles[i].id != id ==> r[i] == profiles[i]
  {
    seq(|profiles|, i requires 0 <= i < |profiles| =>
      if profiles[i].id == id then profiles[i].(fullName := name) else profiles[i])
  }

  /** The outcome of resolving a widget user: the profile rows afterwards and
      the id the feedback is filed under. */
  datatype WidgetResolution = WidgetResolution(profiles: seq<Profile>, authorId: string)

  /** The three cases of the widget user: without a real profile, the widget
      profile is reused (renamed if its name differs) or created; with a real
      profile and a widget profile, the widget profile is reused and renamed
      if the REAL profile's name differs; with a real profile and no widget
      profile, one is created from the real profile. `freshId` is the id the
      database assigns to a created row. */
  function ResolveWidgetProfile(profiles: seq<Profile>, user: UserInput, freshId: string): (r: WidgetResolution)
    // the author is always a profile with the widget address
    ensures HasProfile(r.profiles, r.authorId, WidgetEmail(user.email))
    // existing rows keep their id and email
    ensures |r.profiles| >= |profiles|
    ensures forall i :: 0 <= i < |profiles| ==>
              r.profiles[i].id == profiles[i].id && r.profiles[i].email == profiles[i].email
    // an existing widget profile is reused
    ensures var widget := WithEmail(profiles, WidgetEmail(user.email));
            |widget| > 0 ==> |r.profiles| == |profiles| && r.authorId == widget[0].id
    // otherwise exactly one profile is created
    ensures var widget := WithEmail(profiles, WidgetEmail(user.email));
            var realRows := WithEmail(profiles, user.email);
            |widget| == 0 ==>
              && r.authorId == freshId
              && r.profiles == profiles + [Profile(freshId, WidgetEmail(user.email),
                                                   if |realRows| > 0 then realRows[0].fullName
                                                   else if user.fullName.Some? then user.fullName.value
                                                   else LocalPart(user.email))]
    // a reused widget profile is renamed when the compared name differs: the
    // widget profile's name without a real profile, the real profile's with one
    ensures var widget := WithEmail(profiles, WidgetEmail(user.email));
            var realRows := WithEmail(profiles, user.email);
            |widget| > 0 ==>
              var compared := if |realRows| == 0 then widget[0] else realRows[0];
              if user.fullName.Some? && compared.fullName != user.fullName.value
              then r.profiles == Rename(profiles, widget[0].id, user.fullName.value)
              else r.profiles == profiles
  {
    var address := WidgetEmail(user.email);
    var realRows := WithEmail(profiles, user.email);
    var widget := WithEmail(profiles, address);
    if |widget| > 0 then
      var compared := if |realRows| == 0 then widget[0] else realRows[0];
      var rows := if user.fullName.Some? && compared.fullName != user.fullName.value
                  then Rename(profiles, widget[0].id, user.fullName.value)
                  else profiles;
      assert widget[0] in profiles;
      var k :| 0 <= k < |profiles| && profiles[k] == widget[0];
      assert rows[k].id == widget[0].id && rows[k].email == address;
      assert rows[k] in rows;
      WidgetResolution(rows, widget[0].id)
    else
      var name := if |realRows| > 0 then realRows[0].fullName
                  else if user.fullName.Some? then user.fullName.value
                  else LocalPart(user.email);
      var created := Profile(freshId, address, name);
      var rows := profiles + [created];
      assert rows[|profiles|] == created;
      WidgetResolution(rows, freshId)
  }

  /** Resolving the same widget user again after a first resolution created
      its profile reuses that profile and creates nothing. */
  lemma SecondResolutionReusesCreated(profiles: seq<Profile>, user: UserInput, fresh1: string, fresh2: string)
    requires |WithEmail(profiles, WidgetEmail(user.email))| == 0
    ensures var first := ResolveWidgetProfile(profiles, user, fresh1);
            var second := ResolveWidgetProfile(first.profiles, user, fresh2);
            |first.profiles| == |profiles| + 1
            && |second.profiles| == |first.profiles|
            && second.authorId == first.authorId
  {
    var address := WidgetEmail(user.email);
    var first := ResolveWidgetProfile(profiles, user, fresh1);
    var created := first.profiles[|profiles|];
    assert first.profiles == profiles + [created];
    WhereAppend(profiles, [created], (p: Profile) => p.email == address);
    assert WithEmail(first.profiles, address) == [created];
  }

  // ---------------------------------------------------------------------------
  // The content check

  /** What follows the first `>` of `s`; nothing when there is none. */
  function AfterTag(s: string): (r: string)
    ensures |r| <= |s|
    ensures '>' !in s ==> r == ""
    ensures '>' in s ==> exists i :: 0 <= i < |s| && s[i] == '>' && '>' !in s[..i] && r == s[i + 1..]
  {
    if |s| == 0 then ""
    else if s[0] == '>' then
      assert s[..0] == [];
      s[1..]
    else
      var rest := AfterTag(s[1..]);
      assert '>' in s ==> exists i :: 0 <= i < |s| && s[i] == '>' && '>' !in s[..i] && rest == s[i + 1..] by {
        if '>' in s {
          assert '>' in s[1..];
          var j :| 0 <= j < |s[1..]| && s[1..][j] == '>' && '>' !in s[1..][..j] && rest == s[1..][j + 1..];
          assert s[..j + 1] == [s[0]] + s[1..][..j];
          assert s[j + 1 + 1..] == s[1..][j + 1..];
        }
      }
      rest
  }

  /** `s.replace(/<[^>]*>?/gm, '')`: every `<` is removed together with
      everything up to and including the next `>`, or up to the end when no
      `>` follows. */
  function StripTags(s: string): (r: string)
    ensures '<' !in r
    ensures |r| <= |s|
    ensures '<' !in s ==> r == s
    decreases |s|
  {
    if |s| == 0 then ""
    else if s[0] == '<' then StripTags(AfterTag(s[1..]))
    else
      assert '<' !in s ==> s == [s[0]] + s[1..];
      [s[0]] + StripTags(s[1..])
  }

  lemma {:induction false} AfterTagSkipsTag(y: string, z: string)
    requires '>' !in y
    ensures AfterTag(y + ">" + z) == z
    decreases |y|
  {
    if |y| > 0 {
      assert (y + ">" + z)[1..] == y[1..] + ">" + z;
      AfterTagSkipsTag(y[1..], z);
    } else {
      assert y + ">" + z == ">" + z;
    }
  }

  lemma {:induction false} StripTagsKeepsPlainPrefix(x: string, w: string)
    requires '<' !in x
    ensures StripTags(x + w) == x + StripTags(w)
    decreases |x|
  {
    if |x| > 0 {
      assert (x + w)[1..] == x[1..] + w;
      StripTagsKeepsPlainPrefix(x[1..], w);
      assert x == [x[0]] + x[1..];
    } else {
      assert x + w == w;
    }
  }

  /** One complete tag is removed and the text around it is kept. */
  lemma {:induction false} StripTagsRemovesOneTag(x: string, y: string, z: string)
    requires '<' !in x && '>' !in y
    ensures StripTags(x + "<" + y + ">" + z) == x + StripTags(z)
  {
    var w := "<" + y + ">" + z;
    calc {
      StripTags(x + "<" + y + ">" + z);
      { assert x + "<" + y + ">" + z == x + w; }
      StripTags(x + w);
      { StripTagsKeepsPlainPrefix(x, w); }
      x + StripTags(w);
      { StripTagsSkipsTag(y, z); }
      x + StripTags(z);
    }
  }

  lemma {:induction false} StripTagsSkipsTag(y: string, z: string)
    requires '>' !in y
    ensures StripTags("<" + y + ">" + z) == StripTags(z)
  {
    var w := "<" + y + ">" + z;
    assert w[0] == '<' && w[1..] == y + ">" + z;
    AfterTagSkipsTag(y, z);
  }

  /** A `<` that no `>` follows is removed together with the rest of the
      text, the regex's optional `>`. */
  lemma {:induction false} StripTagsDropsOpenTag(x: string, y: string)
    requires '<' !in x && '>' !in y
    ensures StripTags(x + "<" + y) == x
  {
    var w := "<" + y;
    assert x + "<" + y == x + w;
    StripTagsKeepsPlainPrefix(x, w);
    assert w[0] == '<' && w[1..] == y;
    assert AfterTag(y) == "";
    assert StripTags(w) == StripTags(AfterTag(w[1..])) == "";
    assert x + "" == x;
  }

  /** Content is blank when nothing is left once the tags are stripped. */
  predicate Blank(content: string)
  {
    |StripTags(content)| == 0
  }

  // ---------------------------------------------------------------------------
  // createFeedback

  /** The body of a create or update request. `content` is absent only when
      the caller leaves it out; `tags` are tag ids. */
  datatype FeedbackInput = FeedbackInput(
    title: string,
    content: Option<string>,
    status: Option<string>,
    tags: Option<seq<string>>,
    rawTags: Option<seq<RawTag>>,
    user: Option<UserInput>)

  predicate HasTagList(input: FeedbackInput)
  {
    input.tags.Some? && |input.tags.value| > 0
  }

  /** `raw_tags` for a new row: derived from the tag ids when some are given,
      otherwise whatever the request carried. */
  function CreateTags(db: Db, workspaceId: string, input: FeedbackInput): (r: Result<Option<seq<RawTag>>>)
    // without tag ids the request's own raw_tags are kept, even when absent
    ensures !HasTagList(input) ==> r == Ok(input.rawTags)
    // with tag ids: 404 in a workspace without tags, 400 naming the unknown ids,
    // otherwise the requested workspace tags
    ensures HasTagList(input) && |WorkspaceTags(db, workspaceId)| == 0 ==> r == Err(NO_WORKSPACE_TAGS)
    ensures HasTagList(input) && |WorkspaceTags(db, workspaceId)| > 0 ==>
              var invalid := InvalidTagIds(WorkspaceTags(db, workspaceId), input.tags.value);
              |invalid| > 0 ==> r == Err(ErrorProps(INVALID_TAGS_PREFIX + Join(invalid, ", "), 400))
    ensures HasTagList(input) ==>
              (r.Ok? <==> |WorkspaceTags(db, workspaceId)| > 0
                          && forall i :: 0 <= i < |input.tags.value| ==>
                               HasTagId(WorkspaceTags(db, workspaceId), input.tags.value[i]))
    ensures HasTagList(input) && r.Ok? ==>
              r.value == Some(RawTagsFor(WorkspaceTags(db, workspaceId), input.tags.value))
  {
    if HasTagList(input) then
      match ValidateTags(WorkspaceTags(db, workspaceId), input.tags.value)
      case Err(e) => Err(e)
      case Ok(raw) => Ok(Some(raw))
    else Ok(input.rawTags)
  }

  predicate BadEmail(user: UserInput, isValidEmail: string -> bool)
  {
    user.email == "" || !isValidEmail(user.email)
  }

  /** `createFeedback(boardId, workspaceSlug, data)`, behind the board guard
      with login required. The checks run in order: tags, widget user (whose
      profile writes happen here), content, then the insert. `isValidEmail`
      is the application's email check; `freshProfileId`, `freshFeedbackId`
      and `now` are what the database assigns. Reading `content` when it is
      absent, or the id of a missing session user, throws. */
  function CreateFeedback(db: Db, req: Request, boardId: Option<string>, workspaceSlug: Option<string>,
                          input: FeedbackInput, isValidEmail: string -> bool,
                          freshProfileId: string, freshFeedbackId: string, now: int): (r: Stored<Feedback>)
    // a guard failure is passed on and nothing is written
    ensures match FeedbackBoardAuth(db, req, boardId, workspaceSlug, true)
            case Denied(e) => r == Stored(db, Denied(e))
            case Thrown => r == Stored(db, Thrown)
            case Granted(ctx) =>
              && (HasTagList(input) && |WorkspaceTags(db, ctx.board.workspaceId)| == 0
                  ==> r == Stored(db, Denied(NO_WORKSPACE_TAGS)))
              && ((CreateTags(db, ctx.board.workspaceId, input).Ok? && input.user.Some?
                   && BadEmail(input.user.value, isValidEmail)) ==> r == Stored(db, Denied(INVALID_EMAIL)))
              // blank content is rejected without inserting feedback, but a
              // widget profile written before the check stays written
              && (CreateTags(db, ctx.board.workspaceId, input).Ok?
                  && (input.user.Some? ==> !BadEmail(input.user.value, isValidEmail))
                  && input.content.Some? && Blank(input.content.value)
                  ==> && r.result == Denied(EMPTY_CONTENT)
                      && r.db.feedback == db.feedback
                      && (input.user.Some? ==>
                            r.db.profiles == ResolveWidgetProfile(db.profiles, input.user.value, freshProfileId).profiles))
              && (HasTagList(input) && |WorkspaceTags(db, ctx.board.workspaceId)| > 0 ==>
                    var invalid := InvalidTagIds(WorkspaceTags(db, ctx.board.workspaceId), input.tags.value);
                    |invalid| > 0 ==> r == Stored(db, Denied(ErrorProps(INVALID_TAGS_PREFIX + Join(invalid, ", "), 400))))
              // reading absent content throws
              && ((CreateTags(db, ctx.board.workspaceId, input).Ok?
                   && (input.user.Some? ==> !BadEmail(input.user.value, isValidEmail))
                   && input.content.None?) ==> r.result.Thrown?)
              // every check passed and there is an author: the row is inserted
              && ((CreateTags(db, ctx.board.workspaceId, input).Ok?
                   && (input.user.Some? ==> !BadEmail(input.user.value, isValidEmail))
                   && input.content.Some? && !Blank(input.content.value)
                   && (input.user.Some? || ctx.user.Some?)) ==> r.result.Granted?)
              // without a widget user, reading the id of a missing session user throws
              && ((CreateTags(db, ctx.board.workspaceId, input).Ok?
                   && input.content.Some? && !Blank(input.content.value)
                   && input.user.None? && ctx.user.None?) ==> r.result.Thrown?)
    // only the profile and feedback tables are ever written, and profiles only
    // by the widget resolution
    ensures r.db == db.(profiles := r.db.profiles, feedback := r.db.feedback)
    ensures r.db.profiles == db.profiles
            || (input.user.Some? && r.db.profiles == ResolveWidgetProfile(db.profiles, input.user.value, freshProfileId).profiles)
    // a rejected create inserts no feedback
    ensures !r.result.Granted? ==> r.db.feedback == db.feedback
    // a created row lives on the guarded board and holds the derived tags
    ensures r.result.Granted? ==>
              var row := r.result.ctx;
              && FeedbackBoardAuth(db, req, boardId, workspaceSlug, true).Granted?
              && var ctx := FeedbackBoardAuth(db, req, boardId, workspaceSlug, true).ctx;
              && row.id == freshFeedbackId
              && row.title == input.title && row.status == input.status
              && row.createdAt == now && row.upvotes == 0 && row.commentCount == 0
              && r.db.feedback == db.feedback[freshFeedbackId := row]
              && row.boardId == ctx.board.id && row.workspaceId == ctx.board.workspaceId
              && input.content == Some(row.content) && !Blank(row.content)
              && CreateTags(db, ctx.board.workspaceId, input) == Ok(row.rawTags)
              // the author is the widget profile when a user is given, the caller otherwise
              && (input.user.Some? ==> HasProfile(r.db.profiles, row.userId, WidgetEmail(input.user.value.email)))
              // the author is the resolved widget profile, with the resolution's profile rows written
              && (input.user.Some? ==>
                    var w := ResolveWidgetProfile(db.profiles, input.user.value, freshProfileId);
                    row.userId == w.authorId && r.db.profiles == w.profiles)
              && (input.user.None? ==> ctx.user.Some? && row.userId == ctx.user.value.id && r.db.profiles == db.profiles)
  {
    match FeedbackBoardAuth(db, req, boardId, workspaceSlug, true)
    case Denied(e) => Stored(db, Denied(e))
    case Thrown => Stored(db, Thrown)
    case Granted(ctx) =>
      match CreateTags(db, ctx.board.workspaceId, input)
      case Err(e) => Stored(db, Denied(e))
      case Ok(rawTags) =>
        if input.user.Some? && BadEmail(input.user.value, isValidEmail) then Stored(db, Denied(INVALID_EMAIL))
        else
          var widget := if input.user.Some? then Some(ResolveWidgetProfile(db.profiles, input.user.value, freshProfileId))
                        else None;
          var db1 := if widget.Some? then db.(profiles := widget.value.profiles) else db;
          if input.content.None? then Stored(db1, Thrown)
          else if Blank(input.content.value) then Stored(db1, Denied(EMPTY_CONTENT))
          else if widget.None? && ctx.user.None? then Stored(db1, Thrown)
          else
            var author := if widget.Some? then widget.value.authorId else ctx.user.value.id;
            var row := Feedback(freshFeedbackId, input.title, input.content.value, input.status, rawTags,
                                ctx.board.id, ctx.board.workspaceId, author, now, 0, 0);
            Stored(db1.(feedback := db.feedback[freshFeedbackId := row]), Granted(row))
  }

  /** A created row is then found by the feedback guard under its id, for a
      session caller, in the workspace it was filed under. */
  lemma CreatedFeedbackIsFound(db: Db, req: Request, boardId: Option<string>, workspaceSlug: Option<string>,
                               input: FeedbackInput, isValidEmail: string -> bool,
                               freshProfileId: string, freshFeedbackId: string, now: int, slug: string)
    requires !HasAuthHeader(req)
    ensures var created := CreateFeedback(db, req, boardId, workspaceSlug, input, isValidEmail,
                                          freshProfileId, freshFeedbackId, now);
            created.result.Granted? && slug in db.workspaces ==>
            FeedbackAuth(created.db, req, freshFeedbackId, slug, true).Granted?
            && FeedbackAuth(created.db, req, freshFeedbackId, slug, true).ctx.feedback == created.result.ctx
  {
  }

  // ---------------------------------------------------------------------------
  // updateFeedbackByID

  /** The fields an update may carry. `status` is `Some(v)` whenever the
      request defines it, `v` itself possibly null. */
  datatype Patch = Patch(
    title: Option<string>,
    content: Option<string>,
    status: Option<Option<string>>,
    rawTags: Option<seq<RawTag>>,
    boardId: Option<string>)

  const NoChanges := Patch(None, None, None, None, None)

  /** The row an update writes: title, content, tags and board are replaced
      only by truthy values (an array, even empty, is truthy), the status
      whenever it is defined. */
  function Merge(prev: Feedback, patch: Patch): (r: Feedback)
    ensures r.id == prev.id && r.workspaceId == prev.workspaceId && r.userId == prev.userId
    ensures r.createdAt == prev.createdAt && r.upvotes == prev.upvotes && r.commentCount == prev.commentCount
    ensures r.title != "" || prev.title == ""
    ensures r.content != "" || prev.content == ""
    ensures r.boardId != "" || prev.boardId == ""
    ensures patch.status.Some? ==> r.status == patch.status.value
    ensures patch.rawTags.Some? ==> r.rawTags == patch.rawTags
    // field by field: a truthy value replaces, anything else keeps the old one
    ensures Truthy(patch.title) ==> r.title == patch.title.value
    ensures !Truthy(patch.title) ==> r.title == prev.title
    ensures Truthy(patch.content) ==> r.content == patch.content.value
    ensures !Truthy(patch.content) ==> r.content == prev.content
    ensures Truthy(patch.boardId) ==> r.boardId == patch.boardId.value
    ensures !Truthy(patch.boardId) ==> r.boardId == prev.boardId
    ensures patch.status.None? ==> r.status == prev.status
    ensures patch.rawTags.None? ==> r.rawTags == prev.rawTags
  {
    prev.(title := if Truthy(patch.title) then patch.title.value else prev.title,
         content := if Truthy(patch.content) then patch.content.value else prev.content,
         status := if patch.status.Some? then patch.status.value else prev.status,
         rawTags := if patch.rawTags.Some? then patch.rawTags else prev.rawTags,
         boardId := if Truthy(patch.boardId) then patch.boardId.value else prev.boardId)
  }

  /** An update without fields leaves the row as it was. */
  lemma EmptyPatchKeepsRow(prev: Feedback)
    ensures Merge(prev, NoChanges) == prev
  {
  }

  /** Applying the same update twice is the same as applying it once. */
  lemma MergeIdempotent(prev: Feedback, patch: Patch)
    ensures Merge(Merge(prev, patch), patch) == Merge(prev, patch)
  {
  }

  /** A later update overrides an earlier one field by field. */
  lemma MergeLaterWins(prev: Feedback, p: Patch, q: Patch)
    requires Truthy(q.title) && Truthy(q.content) && q.status.Some? && q.rawTags.Some? && Truthy(q.boardId)
    ensures Merge(Merge(prev, p), q) == Merge(prev, q)
  {
  }

  /** `updateFeedbackByID(id, workspaceSlug, data)`, behind the feedback guard
      with login required. A request that defines `tags` runs the tag check
      even for an empty list, so `tags: []` fails with 404 in a workspace
      without tags and otherwise empties `raw_tags`. */
  function UpdateFeedback(db: Db, req: Request, id: string, slug: string, patch: Patch,
                          tags: Option<seq<string>>): (r: Stored<Feedback>)
    ensures !r.result.Thrown?
    ensures match FeedbackAuth(db, req, id, slug, true)
            case Denied(e) => r == Stored(db, Denied(e))
            case Thrown => true
            case Granted(ctx) =>
              && (tags.Some? && |WorkspaceTags(db, ctx.workspace.id)| == 0 ==> r == Stored(db, Denied(NO_WORKSPACE_TAGS)))
              && (tags.None? ==> r.result == Granted(Merge(ctx.feedback, patch)))
              && (tags.Some? ==> (r.result.Granted? <==> ValidateTags(WorkspaceTags(db, ctx.workspace.id), tags.value).Ok?))
              && (tags.Some? && |WorkspaceTags(db, ctx.workspace.id)| > 0 ==>
                    var invalid := InvalidTagIds(WorkspaceTags(db, ctx.workspace.id), tags.value);
                    |invalid| > 0 ==> r == Stored(db, Denied(ErrorProps(INVALID_TAGS_PREFIX + Join(invalid, ", "), 400))))
              // valid tags replace raw_tags and the rest of the patch is merged as usual
              && (tags.Some? && r.result.Granted? ==>
                    r.result == Granted(Merge(ctx.feedback,
                                              patch.(rawTags := Some(RawTagsFor(WorkspaceTags(db, ctx.workspace.id), tags.value))))))
    ensures r.result.Granted? ==>
              && id in db.feedback
              && r.db == db.(feedback := db.feedback[db.feedback[id].id := r.result.ctx])
              && r.result.ctx.id == db.feedback[id].id
    ensures r.result.Granted? && tags.Some? ==>
              && slug in db.workspaces
              && r.result.ctx.rawTags == Some(RawTagsFor(WorkspaceTags(db, db.workspaces[slug].id), tags.value))
  {
    match FeedbackAuth(db, req, id, slug, true)
    case Denied(e) => Stored(db, Denied(e))
    case Thrown => Stored(db, Thrown)
    case Granted(ctx) =>
      var checked :=
        if tags.Some? then
          match ValidateTags(WorkspaceTags(db, ctx.workspace.id), tags.value)
          case Err(e) => Err(e)
          case Ok(raw) => Ok(patch.(rawTags := Some(raw)))
        else Ok(patch);
      match checked
      case Err(e) => Stored(db, Denied(e))
      case Ok(p) =>
        var row := Merge(ctx.feedback, p);
        Stored(db.(feedback := db.feedback[ctx.feedback.id := row]), Granted(row))
  }

  /** An update without fields or tags leaves the database as it was, in a
      database whose feedback rows are stored under their own ids. */
  lemma EmptyUpdateKeepsDb(db: Db, req: Request, id: string, slug: string)
    requires forall k :: k in db.feedback ==> db.feedback[k].id == k
    ensures UpdateFeedback(db, req, id, slug, NoChanges, None).db == db
  {
    var r := UpdateFeedback(db, req, id, slug, NoChanges, None);
    if r.result.Granted? {
      assert r.result.ctx == db.feedback[id];
      assert db.feedback[id := db.feedback[id]] == db.feedback;
    }
  }

  // ---------------------------------------------------------------------------
  // upvoteFeedbackByID

  /** The `feedback_upvoter` row an upvote inserts or deletes. */
  datatype Upvote = Upvote(profileId: string, feedbackId: string)

  /** `upvoteFeedbackByID(id, workspaceSlug)`, behind the feedback guard with
      login required. A workspace without a module row fails with the
      `.single()` error; anonymous users are turned away when the module
      disables anonymous upvoting; otherwise the caller's upvote is inserted
      when absent and deleted when present. Reading the caller's flags or id
      when the guard handed over no user throws. */
  function UpvoteFeedback(db: Db, req: Request, id: string, slug: string): (r: Stored<Upvote>)
    ensures match FeedbackAuth(db, req, id, slug, true)
            case Denied(e) => r == Stored(db, Denied(e))
            case Thrown => true
            case Granted(ctx) =>
              && (ctx.workspace.id !in db.modules ==> r == Stored(db, Denied(NOT_ONE_ROW)))
              && (ctx.workspace.id in db.modules && ctx.user.None? ==> r == Stored(db, Thrown))
              && ((ctx.workspace.id in db.modules && ctx.user.Some? && ctx.user.value.isAnonymous
                   && !db.modules[ctx.workspace.id].anonUpvoting) ==> r == Stored(db, Denied(ANON_UPVOTING_OFF)))
              // a permitted vote goes through for the caller on this feedback
              && ((ctx.workspace.id in db.modules && ctx.user.Some?
                   && (!ctx.user.value.isAnonymous || db.modules[ctx.workspace.id].anonUpvoting))
                  ==> r.result == Granted(Upvote(ctx.user.value.id, ctx.feedback.id)))
    // a granted vote toggles exactly the caller's pair and changes nothing else
    ensures r.result.Granted? ==>
              var pair := (r.result.ctx.profileId, r.result.ctx.feedbackId);
              && FeedbackAuth(db, req, id, slug, true).Granted?
              && var ctx := FeedbackAuth(db, req, id, slug, true).ctx;
              && ctx.user.Some? && pair == (ctx.user.value.id, ctx.feedback.id)
              && (ctx.user.value.isAnonymous ==> db.modules[ctx.workspace.id].anonUpvoting)
              && r.db == db.(upvoters := r.db.upvoters)
              && (pair in db.upvoters <==> pair !in r.db.upvoters)
              && forall other :: other != pair ==> (other in r.db.upvoters <==> other in db.upvoters)
    ensures !r.result.Granted? ==> r.db == db
  {
    match FeedbackAuth(db, req, id, slug, true)
    case Denied(e) => Stored(db, Denied(e))
    case Thrown => Stored(db, Thrown)
    case Granted(ctx) =>
      if ctx.workspace.id !in db.modules then Stored(db, Denied(NOT_ONE_ROW))
      else if ctx.user.None? then Stored(db, Thrown)
      else if !db.modules[ctx.workspace.id].anonUpvoting && ctx.user.value.isAnonymous then
        Stored(db, Denied(ANON_UPVOTING_OFF))
      else
        var pair := (ctx.user.value.id, ctx.feedback.id);
        var voters := if pair in db.upvoters then db.upvoters - {pair} else db.upvoters + {pair};
        Stored(db.(upvoters := voters), Granted(Upvote(pair.0, pair.1)))
  }

  /** The upvoter table plays no part in the feedback guard. */
  lemma FeedbackAuthIgnoresUpvoters(db: Db, req: Request, id: string, slug: string, voters: set<(string, string)>)
    ensures FeedbackAuth(db.(upvoters := voters), req, id, slug, true) == FeedbackAuth(db, req, id, slug, true)
  {
    assert CreateClient(db.(upvoters := voters), req, false) == CreateClient(db, req, false);
  }

  /** Upvoting twice restores the upvoter table. */
  lemma UpvoteTwiceRestores(db: Db, req: Request, id: string, slug: string)
    requires UpvoteFeedback(db, req, id, slug).result.Granted?
    ensures UpvoteFeedback(UpvoteFeedback(db, req, id, slug).db, req, id, slug).db == db
  {
    var once := UpvoteFeedback(db, req, id, slug);
    FeedbackAuthIgnoresUpvoters(db, req, id, slug, once.db.upvoters);
    var twice := UpvoteFeedback(once.db, req, id, slug);
    assert twice.db.upvoters == db.upvoters;
  }

  // ---------------------------------------------------------------------------
  // Listing: tags and has_upvoted

  /** A feedback row as a list helper hands it out: `tags` is `raw_tags`,
      `has_upvoted` is not yet set. */
  function Listed(row: Feedback): (r: ListedFeedback)
    ensures r.row == row && r.tags == row.rawTags && r.hasUpvoted.None?
  {
    ListedFeedback(row, row.rawTags, None)
  }

  /** The `has_upvoted` pass of the list helpers: it runs only when the
      caller has upvoted something, and then sets the flag on every item. */
  function MarkUpvoted(items: seq<ListedFeedback>, upvotedIds: seq<string>): (r: seq<ListedFeedback>)
    ensures |r| == |items|
    ensures forall k :: 0 <= k < |r| ==> r[k].row == items[k].row && r[k].tags == items[k].tags
    // a caller without upvotes gets items whose flag is left untouched
    ensures |upvotedIds| == 0 ==> r == items
    ensures |upvotedIds| > 0 ==> forall k :: 0 <= k < |r| ==>
              (r[k].hasUpvoted == Some(true) <==> items[k].row.id in upvotedIds)
    ensures |upvotedIds| > 0 ==> forall k :: 0 <= k < |r| ==> r[k].hasUpvoted.Some?
  {
    if |upvotedIds| == 0 then items
    else seq(|items|, k requires 0 <= k < |items| => items[k].(hasUpvoted := Some(items[k].row.id in upvotedIds)))
  }

  /** Marking again with the same ids changes nothing. */
  lemma MarkUpvotedIdempotent(items: seq<ListedFeedback>, upvotedIds: seq<string>)
    ensures MarkUpvoted(MarkUpvoted(items, upvotedIds), upvotedIds) == MarkUpvoted(items, upvotedIds)
  {
  }

  // ---------------------------------------------------------------------------
  // createFeedbackTag / deleteFeedbackTagByName

  /** No two tags of one workspace share a name. */
  ghost predicate UniqueTagNames(tags: seq<Tag>)
  {
    forall i, j :: 0 <= i < j < |tags| && tags[i].workspaceId == tags[j].workspaceId ==> tags[i].name != tags[j].name
  }

  predicate HasTagNamed(tags: seq<Tag>, workspaceId: string, name: string)
  {
    exists t :: t in tags && t.workspaceId == workspaceId && t.name == name
  }

  /** `.eq('workspace_id', workspaceId).eq('name', name)` on the tag table. */
  function TagsNamed(tags: seq<Tag>, workspaceId: string, name: string): (r: seq<Tag>)
    ensures forall i :: 0 <= i < |r| ==> r[i] in tags && r[i].workspaceId == workspaceId && r[i].name == name
    ensures |r| > 0 <==> HasTagNamed(tags, workspaceId, name)
  {
    var r := Where(tags, (t: Tag) => t.workspaceId == workspaceId && t.name == name);
    assert |r| > 0 ==> r[0] in r;
    r
  }

  /** With unique names a workspace has at most one tag of a given name. */
  lemma {:induction false} AtMostOneNamed(tags: seq<Tag>, workspaceId: string, name: string)
    requires UniqueTagNames(tags)
    ensures |TagsNamed(tags, workspaceId, name)| <= 1
    decreases |tags|
  {
    if |tags| > 0 {
      var keep := (t: Tag) => t.workspaceId == workspaceId && t.name == name;
      var rest := tags[1..];
      assert UniqueTagNames(rest) by {
        forall i, j | 0 <= i < j < |rest| && rest[i].workspaceId == rest[j].workspaceId
          ensures rest[i].name != rest[j].name
        {
          assert rest[i] == tags[i + 1] && rest[j] == tags[j + 1];
        }
      }
      AtMostOneNamed(rest, workspaceId, name);
      if keep(tags[0]) {
        forall k | 0 <= k < |rest| ensures !keep(rest[k]) {
          assert rest[k] == tags[k + 1];
        }
        WhereDropsAll(rest, keep);
      }
    }
  }

  /** `createFeedbackTag(workspaceSlug, { name, color })`, behind the
      workspace guard with membership and login required. A tag whose exact
      name the workspace already has is rejected with 400; otherwise a row
      with the database-assigned `freshId` is appended. */
  function CreateTag(db: Db, req: Request, slug: string, name: string, color: string, freshId: string)
    : (r: Stored<Tag>)
    ensures match WorkspaceAuth(db, req, slug, false, true)
            case Denied(e) => r == Stored(db, Denied(e))
            case Thrown => r == Stored(db, Thrown)
            case Granted(ctx) =>
              && (HasTagNamed(db.tags, ctx.workspace.id, name) ==> r == Stored(db, Denied(DUPLICATE_TAG)))
              && (!HasTagNamed(db.tags, ctx.workspace.id, name) ==>
                    r == Stored(db.(tags := db.tags + [Tag(freshId, name, color, ctx.workspace.id)]),
                                Granted(Tag(freshId, name, color, ctx.workspace.id))))
    // names stay unique within a workspace
    ensures UniqueTagNames(db.tags) ==> UniqueTagNames(r.db.tags)
  {
    match WorkspaceAuth(db, req, slug, false, true)
    case Denied(e) => Stored(db, Denied(e))
    case Thrown => Stored(db, Thrown)
    case Granted(ctx) =>
      if HasTagNamed(db.tags, ctx.workspace.id, name) then Stored(db, Denied(DUPLICATE_TAG))
      else
        var tag := Tag(freshId, name, color, ctx.workspace.id);
        var tags := db.tags + [tag];
        assert UniqueTagNames(db.tags) ==> UniqueTagNames(tags) by {
          if UniqueTagNames(db.tags) {
            forall i, j | 0 <= i < j < |tags| && tags[i].workspaceId == tags[j].workspaceId
              ensures tags[i].name != tags[j].name
            {
              if j == |db.tags| {
                assert tags[i] in db.tags;
              }
            }
          }
        }
        Stored(db.(tags := tags), Granted(tag))
  }

  /** `deleteFeedbackTagByName(workspaceSlug, tagName)`, behind the workspace
      guard with membership and login required. Unless exactly one tag of the
      workspace has that name, `.single()` fails and the answer is 404;
      otherwise every row with that tag's id is deleted. */
  function DeleteTagByName(db: Db, req: Request, slug: string, name: string): (r: Stored<Tag>)
    ensures match WorkspaceAuth(db, req, slug, false, true)
            case Denied(e) => r == Stored(db, Denied(e))
            case Thrown => r == Stored(db, Thrown)
            case Granted(ctx) =>
              && (!HasTagNamed(db.tags, ctx.workspace.id, name) ==> r == Stored(db, Denied(TAG_NOT_FOUND)))
              // `.single()`: several tags of that name are a 404 as well, exactly one is the answer
              && (|TagsNamed(db.tags, ctx.workspace.id, name)| != 1 ==> r == Stored(db, Denied(TAG_NOT_FOUND)))
              && (|TagsNamed(db.tags, ctx.workspace.id, name)| == 1 ==>
                    r.result == Granted(TagsNamed(db.tags, ctx.workspace.id, name)[0]))
              && (r.result.Granted? ==>
                    && r.result.ctx in db.tags
                    && r.result.ctx.workspaceId == ctx.workspace.id && r.result.ctx.name == name
                    && r.db == db.(tags := r.db.tags)
                    && (forall t :: t in r.db.tags <==> t in db.tags && t.id != r.result.ctx.id))
    ensures !r.result.Granted? ==> r.db == db
  {
    match WorkspaceAuth(db, req, slug, false, true)
    case Denied(e) => Stored(db, Denied(e))
    case Thrown => Stored(db, Thrown)
    case Granted(ctx) =>
      var named := TagsNamed(db.tags, ctx.workspace.id, name);
      if |named| != 1 then
        Stored(db, Denied(TAG_NOT_FOUND))
      else
        var tag := named[0];
        var kept := Where(db.tags, (t: Tag) => t.id != tag.id);
        assert forall t :: t in kept <==> t in db.tags && t.id != tag.id by {
          forall t | t in db.tags && t.id != tag.id ensures t in kept {
            var k :| 0 <= k < |db.tags| && db.tags[k] == t;
          }
        }
        Stored(db.(tags := kept), Granted(tag))
  }

  /** In a workspace whose tag names are unique, deleting an existing name
      succeeds and removes that tag. */
  lemma UniqueNameIsDeleted(db: Db, req: Request, slug: string, name: string)
    requires WorkspaceAuth(db, req, slug, false, true).Granted?
    requires UniqueTagNames(db.tags)
    requires HasTagNamed(db.tags, WorkspaceAuth(db, req, slug, false, true).ctx.workspace.id, name)
    ensures DeleteTagByName(db, req, slug, name).result.Granted?
    ensures DeleteTagByName(db, req, slug, name).result.ctx.name == name
    ensures DeleteTagByName(db, req, slug, name).result.ctx !in DeleteTagByName(db, req, slug, name).db.tags
  {
    AtMostOneNamed(db.tags, WorkspaceAuth(db, req, slug, false, true).ctx.workspace.id, name);
  }

  /** The workspace guard does not read the tag table. */
  lemma WorkspaceAuthIgnoresTags(db: Db, req: Request, slug: string, tags: seq<Tag>)
    ensures WorkspaceAuth(db.(tags := tags), req, slug, false, true) == WorkspaceAuth(db, req, slug, false, true)
  {
    assert CreateClient(db.(tags := tags), req, false) == CreateClient(db, req, false);
  }

  /** Creating a tag and deleting it by name restores the tag table, when the
      fresh id was not in use. */
  lemma CreateThenDeleteRestoresTags(db: Db, req: Request, slug: string, name: string, color: string, freshId: string)
    requires forall t :: t in db.tags ==> t.id != freshId
    requires CreateTag(db, req, slug, name, color, freshId).result.Granted?
    ensures DeleteTagByName(CreateTag(db, req, slug, name, color, freshId).db, req, slug, name).db == db
  {
    var created := CreateTag(db, req, slug, name, color, freshId);
    var tag := created.result.ctx;
    var ctx := WorkspaceAuth(db, req, slug, false, true).ctx;
    WorkspaceAuthIgnoresTags(db, req, slug, created.db.tags);
    var inWs := (t: Tag) => t.workspaceId == ctx.workspace.id && t.name == name;
    WhereAppend(db.tags, [tag], inWs);
    WhereDropsAll(db.tags, inWs);
    assert Where([tag], inWs) == [tag];
    var other := (t: Tag) => t.id != tag.id;
    WhereAppend(db.tags, [tag], other);
    WhereKeepsAll(db.tags, other);
    assert Where([tag], other) == [];
  }
}

=== FILE: feedback_filters.dfy ===
/** The client-side feedback filter of `feedback-filters.tsx`: the predicate
    `FilterFeedback` applies to every item, the sort it applies afterwards,
    and the query-value rewrites and `isAllEmpty` of the filter header. */
module FeedbackFilters {
  import opened Common
  import opened Store
  import opened StableSort

  /** The included (`i`) and excluded (`e`) values of one facet. */
  datatype Facet<+T> = Facet(i: seq<T>, e: seq<T>)

  /** A board as the board facet knows it. */
  datatype BoardRef = BoardRef(id: string, name: string)

  /** A `created_date` bound: empty, a string `Date` cannot parse, or an
      instant in milliseconds. */
  datatype Bound = Absent | Unparsed | At(ms: int)

  /** The active filters read from the query string. */
  datatype FilterSpec = FilterSpec(
    search: string,
    tags: Facet<RawTag>,
    status: Facet<string>,
    after: Bound,
    before: Bound,
    board: Facet<BoardRef>)

  // ---------------------------------------------------------------------------
  // The per-item predicate

  /** `tab && tab !== 'All'` selects the tab whose status an item must have. */
  predicate TabActive(tab: Option<string>)
  {
    tab.Some? && tab.value != "" && tab.value != "All"
  }

  predicate StatusIs(item: ListedFeedback, name: string)
  {
    item.row.status.Some? && SameIgnoringCase(item.row.status.value, name)
  }

  predicate TabOk(item: ListedFeedback, tab: Option<string>)
  {
    !TabActive(tab) || StatusIs(item, tab.value)
  }

  predicate SearchOk(item: ListedFeedback, search: string)
  {
    if search == "" then true
    else if search[0] != '!' then Includes(LowerStr(item.row.title), LowerStr(search))
    else !Includes(LowerStr(item.row.title), LowerStr(search[1..]))
  }

  predicate HasTag(item: ListedFeedback, tag: RawTag)
  {
    item.tags.Some? && exists k :: 0 <= k < |item.tags.value| && SameIgnoringCase(item.tags.value[k].name, tag.name)
  }

  predicate OnBoard(item: ListedFeedback, board: BoardRef)
  {
    item.row.boardId == board.id
  }

  /** A facet passes when a non-empty include list has a hit and a non-empty
      exclude list has none. */
  predicate FacetOk<T>(f: Facet<T>, hit: T -> bool)
  {
    && (|f.i| == 0 || exists k :: 0 <= k < |f.i| && hit(f.i[k]))
    && (|f.e| == 0 || forall k :: 0 <= k < |f.e| ==> !hit(f.e[k]))
  }

  /** A bound that does not parse compares false both ways, so it never rejects. */
  predicate DateOk(item: ListedFeedback, after: Bound, before: Bound)
  {
    && (before.At? ==> item.row.createdAt <= before.ms)
    && (after.At? ==> item.row.createdAt >= after.ms)
  }

  predicate Keep(item: ListedFeedback, spec: FilterSpec, tab: Option<string>)
  {
    && TabOk(item, tab)
    && SearchOk(item, spec.search)
    && FacetOk(spec.tags, t => HasTag(item, t))
    && FacetOk(spec.status, s => StatusIs(item, s))
    && DateOk(item, spec.after, spec.before)
    && FacetOk(spec.board, b => OnBoard(item, b))
  }

  /** `feedbackList.filter(…)`: the items that pass, in input order. */
  function Filtered(items: seq<ListedFeedback>, spec: FilterSpec, tab: Option<string>): (r: seq<ListedFeedback>)
    ensures forall x :: x in r <==> x in items && Keep(x, spec, tab)
    ensures forall x :: multiset(r)[x] == if Keep(x, spec, tab) then multiset(items)[x] else 0
    ensures |r| <= |items|
  {
    if |items| == 0 then []
    else
      assert items == [items[0]] + items[1..];
      var rest := Filtered(items[1..], spec, tab);
      if Keep(items[0], spec, tab) then [items[0]] + rest else rest
  }

  // ---------------------------------------------------------------------------
  // Ranking

  function CreatedAt(item: ListedFeedback): int { item.row.createdAt }
  function Upvotes(item: ListedFeedback): int { item.row.upvotes }

  /** `FilterFeedback(feedbackList, tab)` with the `sort` query parameter:
      the filtered items sorted by creation time, newest first, then re-sorted
      by the requested mode. The trending score is a caller-supplied key. */
  function FilterFeedback(items: seq<ListedFeedback>, spec: FilterSpec, tab: Option<string>,
                          sort: Option<string>, trendingScore: ListedFeedback -> int): (r: seq<ListedFeedback>)
    // exactly the passing items, each as often as in the input
    ensures multiset(r) == multiset(Filtered(items, spec, tab))
    ensures forall x :: x in r <==> x in items && Keep(x, spec, tab)
    ensures sort != Some("trending") && sort != Some("upvotes") ==> SortedDesc(r, CreatedAt)
    // upvote ties keep the newest-first order of the first sort
    ensures sort == Some("upvotes") ==> LexSortedDesc(r, Upvotes, CreatedAt)
    ensures sort == Some("trending") ==> SortedDesc(r, trendingScore)
  {
    var byDate := SortDesc(Filtered(items, spec, tab), CreatedAt);
    assert forall x :: x in byDate <==> x in multiset(byDate);
    if sort == Some("trending") then SortDesc(byDate, trendingScore)
    else if sort == Some("upvotes") then
      SortKeepsEarlierOrder(byDate, Upvotes, CreatedAt);
      SortDesc(byDate, Upvotes)
    else SortDesc(byDate, CreatedAt)
  }

  /** Exclusion wins: an item that hits the exclude list fails the facet even
      when it also hits the include list. */
  lemma ExcludeWins<T>(f: Facet<T>, hit: T -> bool, k: int)
    requires 0 <= k < |f.e| && hit(f.e[k])
    ensures !FacetOk(f, hit)
  {
  }

  /** A lone `!` rejects every item: every title contains the empty string. */
  lemma BareNegationRejectsAll(item: ListedFeedback)
    ensures !SearchOk(item, "!")
  {
    assert OccursAt(LowerStr(item.row.title), LowerStr("!"[1..]), 0);
  }

  // ---------------------------------------------------------------------------
  // The filter header

  /** `isAllEmpty(filter)`: no filter at all, or every field empty. */
  predicate IsAllEmpty(filter: Option<FilterSpec>)
  {
    match filter
    case None => true
    case Some(f) =>
      && f.search == ""
      && f.tags.i == [] && f.tags.e == []
      && f.status.i == [] && f.status.e == []
      && f.after == Absent && f.before == Absent
      && f.board.i == [] && f.board.e == []
  }

  /** When the header hides itself, the filter keeps every item. */
  lemma AllEmptyKeepsEverything(spec: FilterSpec, item: ListedFeedback)
    requires IsAllEmpty(Some(spec))
    ensures Keep(item, spec, None)
  {
  }

  /** The search chip reads "excludes" exactly when the value starts with `!`. */
  function SearchLabel(search: string): (r: string)
    ensures r == "excludes" <==> StartsWith(search, "!")
    ensures r == "includes" <==> !StartsWith(search, "!")
    // the label says what the search does to the list
    ensures r == "excludes" ==> forall item :: SearchOk(item, search) <==>
              !Includes(LowerStr(item.row.title), LowerStr(search[1..]))
    ensures r == "includes" && search != "" ==> forall item :: SearchOk(item, search) <==>
              Includes(LowerStr(item.row.title), LowerStr(search))
  {
    if StartsWith(search, "!") then "excludes" else "includes"
  }

  /** "Include": the search value with every `!` removed. */
  function IncludeSearch(search: string): (r: string)
    ensures '!' !in r
    ensures SearchLabel(r) == "includes"
    ensures r != "" ==> forall item :: SearchOk(item, r) <==> Includes(LowerStr(item.row.title), LowerStr(r))
    // only the `!` characters go: a value without any is kept as it is
    ensures '!' !in search ==> r == search
    ensures forall c :: c != '!' ==> (c in r <==> c in search)
  {
    var r := RemoveChar(search, '!');
    assert |r| > 0 ==> r[0] in r;
    r
  }

  /** "Do not include": exactly one leading `!` in front of the value with
      every `!` removed. */
  function ExcludeSearch(search: string): (r: string)
    ensures |r| >= 1 && r[0] == '!' && '!' !in r[1..]
    ensures SearchLabel(r) == "excludes"
    ensures IncludeSearch(r) == IncludeSearch(search)
    ensures forall item :: SearchOk(item, r) <==> !Includes(LowerStr(item.row.title), LowerStr(IncludeSearch(search)))
  {
    var body := RemoveChar(search, '!');
    assert ("!" + body)[1..] == body;
    assert RemoveChar("!" + body, '!') == RemoveChar(body, '!');
    "!" + body
  }

  /** "Include" works piecewise: the value of a concatenation is the
      concatenation of the values. */
  lemma IncludeSearchDistributes(a: string, b: string)
    ensures IncludeSearch(a + b) == IncludeSearch(a) + IncludeSearch(b)
  {
    RemoveCharAppend(a, b, '!');
  }

  /** Choosing the same option twice changes nothing more than choosing it once. */
  lemma SearchRewritesIdempotent(search: string)
    ensures IncludeSearch(IncludeSearch(search)) == IncludeSearch(search)
    ensures ExcludeSearch(ExcludeSearch(search)) == ExcludeSearch(search)
  {
  }

  /** Each name prefixed with `!`, the form the query uses for excluded values. */
  function Negated(names: seq<string>): (r: seq<string>)
    ensures |r| == |names|
    ensures forall k :: 0 <= k < |r| ==> r[k] == "!" + names[k]
  {
    seq(|names|, k requires 0 <= k < |names| => "!" + names[k])
  }

  /** "Do not include" on the included chip: the query value lists every
      excluded name, then every included name, each with `!`. The same
      rewrite serves tags (by name), statuses (by label) and boards (by name). */
  function IncludedToExcluded(included: seq<string>, excluded: seq<string>): (r: string)
    ensures CommaFree(included) && CommaFree(excluded) && |included| + |excluded| > 0 ==>
              Split(r, ',') == Negated(excluded) + Negated(included)
  {
    var parts := Negated(excluded) + Negated(included);
    assert CommaFree(included) && CommaFree(excluded) && |parts| > 0 ==> Split(Join(parts, ","), ',') == parts by {
    if CommaFree(included) && CommaFree(excluded) && |parts| > 0 {
      assert forall k :: 0 <= k < |parts| ==> ',' !in parts[k] by {
        forall k | 0 <= k < |parts| ensures ',' !in parts[k] {
          if k < |excluded| {
            assert parts[k] == "!" + excluded[k];
          } else {
            assert parts[k] == "!" + included[k - |excluded|];
          }
        }
      }
      SplitJoin(parts, ',');
    }
    }
    Join(parts, ",")
  }

  /** Clearing the included chip keeps only the excluded names, with `!`. */
  function ClearIncluded(excluded: seq<string>): (r: string)
    ensures CommaFree(excluded) && |excluded| > 0 ==> Split(r, ',') == Negated(excluded)
    ensures |excluded| == 0 ==> r == ""
  {
    var parts := Negated(excluded);
    assert CommaFree(excluded) && |parts| > 0 ==> Split(Join(parts, ","), ',') == parts by {
    if CommaFree(excluded) && |parts| > 0 {
      assert forall k :: 0 <= k < |parts| ==> ',' !in parts[k] by {
        forall k | 0 <= k < |parts| ensures ',' !in parts[k] {
          assert parts[k] == "!" + excluded[k];
        }
      }
      SplitJoin(parts, ',');
    }
    }
    Join(parts, ",")
  }

  /** "Include" on the excluded chip: included names, then the excluded ones,
      all without `!`. */
  function ExcludedToIncluded(included: seq<string>, excluded: seq<string>): (r: string)
    ensures CommaFree(included + excluded) && |included| + |excluded| > 0 ==>
              Split(r, ',') == included + excluded
  {
    assert CommaFree(included + excluded) && |included| + |excluded| > 0 ==>
             Split(Join(included + excluded, ","), ',') == included + excluded by {
      if CommaFree(included + excluded) && |included| + |excluded| > 0 {
        SplitJoin(included + excluded, ',');
      }
    }
    Join(included + excluded, ",")
  }

  /** Clearing the excluded chip keeps only the included names. */
  function ClearExcluded(included: seq<string>): (r: string)
    ensures CommaFree(included) && |included| > 0 ==> Split(r, ',') == included
    ensures |included| == 0 ==> r == ""
  {
    assert CommaFree(included) && |included| > 0 ==> Split(Join(included, ","), ',') == included by {
      if CommaFree(included) && |included| > 0 {
        SplitJoin(included, ',');
      }
    }
    Join(included, ",")
  }
}

=== FILE: filter_combobox.dfy ===
/** The dashboard filter combobox (`filter-combobox.tsx`): the status and tag
    selections with their case-insensitive toggle, the comma-joined query
    values they are stored in, and the stack of pages the popover walks. */
module FilterCombobox {
  import opened Common

  // ---------------------------------------------------------------------------
  // Selections

  /** `selection.find(t => t.toLowerCase() === option.toLowerCase())` is
      truthy: some entry matches case-insensitively and the entry found is
      not the empty string (which only matches an empty option). */
  predicate Selected(selection: seq<string>, option: string)
  {
    exists k :: 0 <= k < |selection| && SameIgnoringCase(selection[k], option) && selection[k] != ""
  }

  /** The entries that do not match `option` case-insensitively, in order. */
  function Unmatched(selection: seq<string>, option: string): (r: seq<string>)
    ensures |r| <= |selection|
    ensures forall k :: 0 <= k < |r| ==> r[k] in selection && !SameIgnoringCase(r[k], option)
    ensures forall k :: 0 <= k < |selection| && !SameIgnoringCase(selection[k], option) ==> selection[k] in r
  {
    Where(selection, (t: string) => !SameIgnoringCase(t, option))
  }

  /** Dropping the matches distributes over concatenation, and a single entry
      stays exactly when it does not match: so what remains keeps its order
      and its repeats. */
  lemma UnmatchedAppend(a: seq<string>, b: seq<string>, option: string)
    ensures Unmatched(a + b, option) == Unmatched(a, option) + Unmatched(b, option)
    ensures |a| == 1 ==> Unmatched(a, option) == (if SameIgnoringCase(a[0], option) then [] else a)
  {
    WhereAppend(a, b, (t: string) => !SameIgnoringCase(t, option));
    if |a| == 1 {
      assert a[1..] == [];
    }
  }

  /** Selecting an option: every case-insensitive match is removed when the
      option is selected, otherwise the option is appended. */
  function Toggle(selection: seq<string>, option: string): (r: seq<string>)
    ensures Selected(selection, option) ==>
              |r| < |selection| && forall k :: 0 <= k < |r| ==> r[k] in selection && !SameIgnoringCase(r[k], option)
    ensures Selected(selection, option) ==> r == Unmatched(selection, option)
    ensures !Selected(selection, option) ==> r == selection + [option]
    // after a toggle a non-empty option is selected exactly when it was not before
    ensures option != "" ==> (Selected(r, option) <==> !Selected(selection, option))
  {
    if Selected(selection, option) then
      var k :| 0 <= k < |selection| && SameIgnoringCase(selection[k], option) && selection[k] != "";
      UnmatchedShrinks(selection, option, k);
      Unmatched(selection, option)
    else
      var r := selection + [option];
      assert option != "" ==> r[|selection|] == option && SameIgnoringCase(r[|selection|], option);
      r
  }

  lemma {:induction false} UnmatchedShrinks(selection: seq<string>, option: string, k: int)
    requires 0 <= k < |selection| && SameIgnoringCase(selection[k], option)
    ensures |Unmatched(selection, option)| < |selection|
    decreases |selection|
  {
    if k > 0 {
      UnmatchedShrinks(selection[1..], option, k - 1);
    }
  }

  /** Toggling an unselected non-empty option twice gives the selection back,
      provided nothing in it already matched the option. */
  lemma {:induction false} ToggleTwiceRestores(selection: seq<string>, option: string)
    requires option != ""
    requires forall k :: 0 <= k < |selection| ==> !SameIgnoringCase(selection[k], option)
    ensures Toggle(Toggle(selection, option), option) == selection
  {
    var once := selection + [option];
    assert Toggle(selection, option) == once;
    assert Selected(once, option) by {
      assert SameIgnoringCase(once[|selection|], option);
    }
    var keep := (t: string) => !SameIgnoringCase(t, option);
    WhereAppend(selection, [option], keep);
    WhereKeepsAll(selection, keep);
    assert Where([option], keep) == [];
  }

  // ---------------------------------------------------------------------------
  // Query values

  /** The value written to the query string: the selection joined with commas. */
  function QueryValue(selection: seq<string>): (r: string)
    ensures |selection| == 0 ==> r == ""
    ensures CommaFree(selection) && |selection| >= 1 ==> Split(r, ',') == selection
  {
    assert CommaFree(selection) && |selection| >= 1 ==> Split(Join(selection, ","), ',') == selection by {
      if CommaFree(selection) && |selection| >= 1 {
        SplitJoin(selection, ',');
      }
    }
    Join(selection, ",")
  }

  /** The selection read back from the query string: the value split on
      commas, or nothing when the parameter is missing. A present but empty
      value reads as one empty entry, since `''.split(',')` is `['']`. */
  function Preset(param: Option<string>): (r: seq<string>)
    ensures param.None? <==> |r| == 0
    ensures param.Some? ==> Join(r, ",") == param.value
    ensures CommaFree(r)
  {
    match param
    case None => []
    case Some(v) =>
      JoinSplit(v, ',');
      Split(v, ',')
  }

  /** Writing a selection and reading it back gives it back for non-empty
      selections without commas; an emptied selection comes back as `[""]`. */
  lemma PresetAfterWrite(selection: seq<string>)
    requires CommaFree(selection)
    ensures |selection| >= 1 ==> Preset(Some(QueryValue(selection))) == selection
    ensures |selection| == 0 ==> Preset(Some(QueryValue(selection))) == [""]
  {
  }

  // ---------------------------------------------------------------------------
  // Pages

  /** The page on top of the stack; none at the root. */
  function Current(pages: seq<string>): (r: Option<string>)
    ensures r.None? <==> |pages| == 0
    ensures r.Some? ==> r.value == pages[|pages| - 1]
  {
    if |pages| == 0 then None else Some(pages[|pages| - 1])
  }

  /** Choosing a category opens its page on top of the current one. */
  function Push(pages: seq<string>, page: string): (r: seq<string>)
    ensures Current(r) == Some(page)
    ensures |r| == |pages| + 1 && r[..|pages|] == pages
  {
    pages + [page]
  }

  /** `pages.slice(0, -1)`: the top page removed; an empty stack stays empty. */
  function Pop(pages: seq<string>): (r: seq<string>)
    ensures |pages| == 0 ==> r == []
    ensures |pages| > 0 ==> |r| == |pages| - 1 && pages == r + [pages[|pages| - 1]]
  {
    if |pages| == 0 then [] else pages[..|pages| - 1]
  }

  lemma PopUndoesPush(pages: seq<string>, page: string)
    ensures Pop(Push(pages, page)) == pages
  {
  }

  /** The key handler: Escape, or Backspace with an empty search box, goes
      back one page; any other key leaves the stack alone. */
  function KeyDown(pages: seq<string>, key: string, search: string): (r: seq<string>)
    ensures key == "Escape" || (key == "Backspace" && search == "") ==> r == Pop(pages)
    ensures key != "Escape" && (key != "Backspace" || search != "") ==> r == pages
    // the stack only ever shrinks from the top, by at most one page
    ensures |r| <= |pages| && r == pages[..|r|] && |pages| - |r| <= 1
  {
    if key == "Escape" || (key == "Backspace" && search == "") then Pop(pages) else pages
  }

  /** Going back from a page just opened returns to the stack it was opened
      from; typing in the search box keeps it open. */
  lemma KeyDownUndoesPush(pages: seq<string>, page: string, search: string)
    ensures KeyDown(Push(pages, page), "Escape", search) == pages
    ensures KeyDown(Push(pages, page), "Backspace", "") == pages
    ensures search != "" ==> KeyDown(Push(pages, page), "Backspace", search) == Push(pages, page)
  {
  }

  /** The popover's open state together with its page stack. */
  datatype Popover = Popover(open: bool, pages: seq<string>)

  /** `onOpenChange`: the state flips, and opening starts at the root page. */
  function OpenChange(p: Popover): (r: Popover)
    ensures r.open == !p.open
    ensures r.open ==> r.pages == []
    ensures !r.open ==> r.pages == p.pages
  {
    Popover(!p.open, if !p.open then [] else p.pages)
  }

  /** Closing keeps the pages visited, but reopening forgets them: whatever
      page was showing, the popover reopens at the root. */
  lemma ReopenStartsAtRoot(p: Popover)
    requires p.open
    ensures OpenChange(p).pages == p.pages
    ensures OpenChange(OpenChange(p)) == Popover(true, [])
    ensures Current(OpenChange(OpenChange(p)).pages).None?
  {
  }
}

=== FILE: stable_sort.dfy ===
/** `Array.prototype.sort` with a comparator of the form
    `(a, b) => key(b) - key(a)`: a stable sort into non-increasing key order.
    It is written as an insertion sort on sequences, which is stable because
    an element is inserted in front of the later elements it ties with. */
module StableSort {

  /** Every element's key is at least that of every later element. */
  ghost predicate SortedDesc<T>(s: seq<T>, key: T -> int)
  {
    forall i, j :: 0 <= i < j < |s| ==> key(s[i]) >= key(s[j])
  }

  /** Ordered by `primary` descending, and by `secondary` descending among
      elements whose primary keys tie. */
  ghost predicate LexSortedDesc<T>(s: seq<T>, primary: T -> int, secondary: T -> int)
  {
    forall i, j :: 0 <= i < j < |s| ==>
      primary(s[i]) > primary(s[j]) || (primary(s[i]) == primary(s[j]) && secondary(s[i]) >= secondary(s[j]))
  }

  /** Places `x` in front of the first element whose key does not exceed its own. */
  function Insert<T>(x: T, s: seq<T>, key: T -> int): (r: seq<T>)
    ensures multiset(r) == multiset(s) + multiset{x}
    ensures |r| == |s| + 1
  {
    if |s| == 0 then [x]
    else if key(s[0]) <= key(x) then [x] + s
    else
      assert s == [s[0]] + s[1..];
      [s[0]] + Insert(x, s[1..], key)
  }

  lemma InsertElements<T>(x: T, s: seq<T>, key: T -> int, y: T)
    requires y in Insert(x, s, key)
    ensures y == x || y in s
  {
    assert y in multiset(Insert(x, s, key));
  }

  lemma {:induction false} InsertSorted<T>(x: T, s: seq<T>, key: T -> int)
    requires SortedDesc(s, key)
    ensures SortedDesc(Insert(x, s, key), key)
    decreases |s|
  {
    var r := Insert(x, s, key);
    if |s| > 0 && key(s[0]) > key(x) {
      var tail := Insert(x, s[1..], key);
      InsertSorted(x, s[1..], key);
      assert r == [s[0]] + tail;
      forall j | 0 < j < |r| ensures key(r[0]) >= key(r[j]) {
        assert r[j] == tail[j - 1];
        InsertElements(x, s[1..], key, r[j]);
        if r[j] != x {
          var k :| 0 <= k < |s[1..]| && s[1..][k] == r[j];
          assert s[k + 1] == r[j];
        }
      }
      forall i, j | 0 < i < j < |r| ensures key(r[i]) >= key(r[j]) {
        assert r[i] == tail[i - 1] && r[j] == tail[j - 1];
      }
    } else if |s| > 0 {
      assert r == [x] + s;
      forall i, j | 0 <= i < j < |r| ensures key(r[i]) >= key(r[j]) {
        assert r[j] == s[j - 1];
        if i > 0 {
          assert r[i] == s[i - 1];
        } else {
          assert key(s[0]) >= key(s[j - 1]);
        }
      }
    }
  }

  /** The sort: non-increasing by `key`, ties in input order. */
  function SortDesc<T>(s: seq<T>, key: T -> int): (r: seq<T>)
    ensures multiset(r) == multiset(s)
    ensures |r| == |s|
    ensures SortedDesc(r, key)
  {
    if |s| == 0 then []
    else
      assert s == [s[0]] + s[1..];
      var rest := SortDesc(s[1..], key);
      InsertSorted(s[0], rest, key);
      Insert(s[0], rest, key)
  }

  lemma {:induction false} InsertKeepsTies<T>(x: T, s: seq<T>, primary: T -> int, secondary: T -> int)
    requires LexSortedDesc(s, primary, secondary)
    requires forall y :: y in s ==> secondary(x) >= secondary(y)
    ensures LexSortedDesc(Insert(x, s, primary), primary, secondary)
    decreases |s|
  {
    if |s| > 0 && primary(s[0]) > primary(x) {
      InsertKeepsTies(x, s[1..], primary, secondary);
      var tail := Insert(x, s[1..], primary);
      var r := Insert(x, s, primary);
      assert r == [s[0]] + tail;
      forall i, j | 0 <= i < j < |r|
        ensures primary(r[i]) > primary(r[j]) || (primary(r[i]) == primary(r[j]) && secondary(r[i]) >= secondary(r[j]))
      {
        if i == 0 {
          assert r[j] == tail[j - 1];
          InsertElements(x, s[1..], primary, r[j]);
          if r[j] != x {
            var k :| 0 <= k < |s[1..]| && s[1..][k] == r[j];
            assert s[k + 1] == r[j];
          }
        } else {
          assert r[i] == tail[i - 1] && r[j] == tail[j - 1];
        }
      }
    } else if |s| > 0 {
      var r := Insert(x, s, primary);
      assert r == [x] + s;
      forall i, j | 0 <= i < j < |r|
        ensures primary(r[i]) > primary(r[j]) || (primary(r[i]) == primary(r[j]) && secondary(r[i]) >= secondary(r[j]))
      {
        if i == 0 {
          assert r[j] == s[j - 1] && r[j] in s;
          if j - 1 > 0 {
            assert primary(s[0]) >= primary(s[j - 1]);
          }
        } else {
          assert r[i] == s[i - 1] && r[j] == s[j - 1];
        }
      }
    }
  }

  /** Stability, stated as its consequence: sorting by `primary` a sequence
      already ordered by `secondary` leaves ties in `secondary` order. */
  lemma {:induction false} SortKeepsEarlierOrder<T>(s: seq<T>, primary: T -> int, secondary: T -> int)
    requires SortedDesc(s, secondary)
    ensures LexSortedDesc(SortDesc(s, primary), primary, secondary)
    decreases |s|
  {
    if |s| > 0 {
      var rest := SortDesc(s[1..], primary);
      assert SortedDesc(s[1..], secondary);
      SortKeepsEarlierOrder(s[1..], primary, secondary);
      forall y | y in rest ensures secondary(s[0]) >= secondary(y) {
        assert y in multiset(rest);
        assert y in s[1..];
        var k :| 0 <= k < |s[1..]| && s[1..][k] == y;
        assert s[k + 1] == y;
      }
      InsertKeepsTies(s[0], rest, primary, secondary);
    }
  }
}

=== FILE: store.dfy ===
/** The rows the API helpers read from the database, and the database itself
    as a set of lookup maps. Every query the helpers issue with `.eq(…)` and
    `.single()` becomes a map lookup; a query that finds no row is a missing
    key. */
module Store {
  import opened Common

  /** A signed-in account as reported by the session (`supabase.auth.getUser`). */
  datatype User = User(id: string, isAnonymous: bool)

  /** A row of the `profile` table. */
  datatype Profile = Profile(id: string, email: string, fullName: string)

  /** A row returned by the `get_workspace_api_key` procedure. An empty `id`
      stands for the falsy id the source rejects. */
  datatype ApiKey = ApiKey(id: string, permission: string, creatorId: string)

  const PUBLIC_ACCESS: string := "public_access"

  datatype Workspace = Workspace(id: string, slug: string, name: string)

  datatype Board = Board(id: string, workspaceId: string, isPrivate: bool)

  /** A row of `workspace_module`: the joined default feedback board (null
      when none is configured) and the anonymous-upvoting switch. */
  datatype ModuleConfig = ModuleConfig(defaultBoard: Option<Board>, anonUpvoting: bool)

  /** A row of `feedback_tag`. */
  datatype Tag = Tag(id: string, name: string, color: string, workspaceId: string)

  /** The `{ name, color }` objects stored in a feedback row's `raw_tags`. */
  datatype RawTag = RawTag(name: string, color: string)

  /** A row of the `feedback` table. */
  datatype Feedback = Feedback(
    id: string,
    title: string,
    content: string,
    status: Option<string>,
    rawTags: Option<seq<RawTag>>,
    boardId: string,
    workspaceId: string,
    userId: string,
    createdAt: int,
    upvotes: int,
    commentCount: int)

  /** A feedback row as handed to the client: `tags` is `raw_tags` under
      another name, and `has_upvoted` is absent until it is marked. */
  datatype ListedFeedback = ListedFeedback(row: Feedback, tags: Option<seq<RawTag>>, hasUpvoted: Option<bool>)

  /** The database as the guards and helpers see it. Tables whose rows are
      searched by a column other than a unique key are sequences in row
      order; the rest are maps by their key. */
  datatype Db = Db(
    apiKeys: map<string, ApiKey>,           // get_workspace_api_key, by secret
    profiles: seq<Profile>,                 // profile rows
    workspaces: map<string, Workspace>,     // workspace, by slug
    boards: map<string, Board>,             // feedback_board, by id
    modules: map<string, ModuleConfig>,     // workspace_module, by workspace id
    members: set<(string, string)>,         // workspace_member, (workspace id, user id)
    feedback: map<string, Feedback>,        // feedback, by id
    tags: seq<Tag>,                         // feedback_tag rows
    upvoters: set<(string, string)>)        // feedback_upvoter, (profile id, feedback id)

  /** `from('profile').select().eq('id', id).single()`: the row when exactly
      one row has that id, an error (here `None`) otherwise. */
  function ProfileById(db: Db, id: string): (r: Option<Profile>)
    ensures r.Some? ==> r.value in db.profiles && r.value.id == id
    ensures r.Some? <==> |Where(db.profiles, (p: Profile) => p.id == id)| == 1
  {
    var rows := Where(db.profiles, (p: Profile) => p.id == id);
    if |rows| == 1 then
      assert rows[0] in rows;
      Some(rows[0])
    else None
  }

  predicate IsMember(db: Db, workspaceId: string, userId: string)
  {
    (workspaceId, userId) in db.members
  }
}

=== FILE: title_provider.dfy ===
/** The page title of the dashboard layout (`title-provider.tsx`): the name
    of the first tab whose slug occurs in the current path, falling back to
    the initial title. */
module TitleProvider {
  import opened Common

  datatype Tab = Tab(name: string, slug: string)

  /** `tabs.find(tab => pathname.includes(tab.slug))`, as an index. */
  function FirstMatch(tabs: seq<Tab>, pathname: string): (r: Option<nat>)
    ensures r.Some? ==> r.value < |tabs| && Includes(pathname, tabs[r.value].slug)
    ensures r.Some? ==> forall k :: 0 <= k < r.value ==> !Includes(pathname, tabs[k].slug)
    ensures r.None? ==> forall k :: 0 <= k < |tabs| ==> !Includes(pathname, tabs[k].slug)
    decreases |tabs|
  {
    if |tabs| == 0 then None
    else if Includes(pathname, tabs[0].slug) then Some(0)
    else
      match FirstMatch(tabs[1..], pathname)
      case None => None
      case Some(k) =>
        assert forall j :: 1 <= j < k + 1 ==> tabs[j] == tabs[1..][j - 1];
        Some(k + 1)
  }

  /** `currentTitle || initialTitle`, where the current title is the name of
      the first tab whose slug occurs in the path; there is no path before
      the router knows it. */
  function CurrentTitle(tabs: seq<Tab>, initialTitle: string, pathname: Option<string>): (r: string)
    ensures pathname.None? ==> r == initialTitle
    ensures pathname.Some? && FirstMatch(tabs, pathname.value).None? ==> r == initialTitle
    ensures pathname.Some? && FirstMatch(tabs, pathname.value).Some? ==>
              var name := tabs[FirstMatch(tabs, pathname.value).value].name;
              r == (if name != "" then name else initialTitle)
    ensures r == initialTitle || exists k :: 0 <= k < |tabs| && r == tabs[k].name
  {
    if pathname.None? then initialTitle
    else
      match FirstMatch(tabs, pathname.value)
      case None => initialTitle
      case Some(k) => if tabs[k].name != "" then tabs[k].name else initialTitle
  }

  /** A tab with an empty slug matches every path, so no later tab is reached. */
  lemma EmptySlugMatchesAnyPath(tabs: seq<Tab>, pathname: string, k: nat)
    requires k < |tabs| && tabs[k].slug == ""
    ensures FirstMatch(tabs, pathname).Some? && FirstMatch(tabs, pathname).value <= k
  {
    assert OccursAt(pathname, tabs[k].slug, 0);
  }

  /** Earlier tabs win: a matching tab decides the title whatever follows it. */
  lemma {:induction false} FirstTabWins(tab: Tab, rest: seq<Tab>, initialTitle: string, pathname: string)
    requires Includes(pathname, tab.slug) && tab.name != ""
    ensures CurrentTitle([tab] + rest, initialTitle, Some(pathname)) == tab.name
  {
    assert ([tab] + rest)[0] == tab;
  }
}

=== FILE: workspace_api.dfy ===
/** The workspace helpers of `lib/api/workspace.ts`: the validation order of
    create and update, the replacement of inline images by uploaded ones,
    the reshaping of member rows, and the rewriting of the analytics
    top-feedback and top-changelog lists from ids to titles. */
module WorkspaceApi {
  import opened Common
  import opened Store
  import opened Auth

  const SLUG_INVALID := ErrorProps("slug is invalid.", 400)
  const REDIRECT_URL_INVALID := ErrorProps("icon redirect url is invalid.", 400)
  const DATA_IMAGE := "data:image"
  /** The key analytics uses for the workspace's root page. */
  const ROOT_KEY := "_root"

  // ---------------------------------------------------------------------------
  // createWorkspace

  /** `createWorkspace({ name, slug })`, behind the user guard. An invalid
      slug is turned away before anything is written. `isSlugValid` is the
      application's slug rule, `freshId` the id the database assigns, and
      `conflict` what the database reports when the insert fails because the
      slug is taken. */
  function CreateWorkspace(db: Db, req: Request, name: string, slug: string, isSlugValid: string -> bool,
                           freshId: string, conflict: string): (r: (Db, Result<Workspace>))
    ensures UserAuth(db, req).Err? ==> r == (db, Err(UserAuth(db, req).error))
    ensures UserAuth(db, req).Ok? && !isSlugValid(slug) ==> r == (db, Err(SLUG_INVALID))
    // a valid slug that is taken fails at the insert, a free one is inserted
    ensures UserAuth(db, req).Ok? && isSlugValid(slug) && slug in db.workspaces ==>
              r == (db, Err(ErrorProps(conflict, 500)))
    ensures UserAuth(db, req).Ok? && isSlugValid(slug) && slug !in db.workspaces ==>
              r.1 == Ok(Workspace(freshId, slug, name))
    ensures r.1.Err? ==> r.0 == db
    ensures r.1.Ok? ==>
              && UserAuth(db, req).Ok? && isSlugValid(slug) && slug !in db.workspaces
              && r.1.value == Workspace(freshId, slug, name)
              && r.0 == db.(workspaces := db.workspaces[slug := r.1.value])
  {
    match UserAuth(db, req)
    case Err(e) => (db, Err(e))
    case Ok(_) =>
      if !isSlugValid(slug) then (db, Err(SLUG_INVALID))
      else if slug in db.workspaces then (db, Err(ErrorProps(conflict, 500)))
      else
        var workspace := Workspace(freshId, slug, name);
        (db.(workspaces := db.workspaces[slug := workspace]), Ok(workspace))
  }

  /** A created workspace is then found by the workspace guard under its
      slug, for the same caller. With anonymous access allowed that is enough
      for a grant. Under the default guard the caller also needs a membership
      row, which creating the workspace does not write: without one the
      creator is refused with 403. */
  lemma CreatedWorkspaceIsFound(db: Db, req: Request, name: string, slug: string, isSlugValid: string -> bool,
                                freshId: string, conflict: string, requireLogin: bool)
    requires CreateWorkspace(db, req, name, slug, isSlugValid, freshId, conflict).1.Ok?
    ensures var created := CreateWorkspace(db, req, name, slug, isSlugValid, freshId, conflict);
            WorkspaceAuth(created.0, req, slug, true, requireLogin)
            == Granted(WorkspaceContext(UserAuth(db, req).value, created.1.value, true))
    ensures var created := CreateWorkspace(db, req, name, slug, isSlugValid, freshId, conflict);
            var user := UserAuth(db, req).value;
            user.Some? ==>
              (!IsMember(db, freshId, user.value.id) ==>
                 WorkspaceAuth(created.0, req, slug, false, requireLogin) == Denied(NOT_A_MEMBER))
              && (IsMember(db, freshId, user.value.id) ==>
                    WorkspaceAuth(created.0, req, slug, false, requireLogin)
                    == Granted(WorkspaceContext(user, created.1.value, false)))
  {
    var created := CreateWorkspace(db, req, name, slug, isSlugValid, freshId, conflict);
    assert CreateClient(created.0, req, true) == CreateClient(db, req, true);
    assert CreateClient(created.0, req, false) == CreateClient(db, req, false);
  }

  // ---------------------------------------------------------------------------
  // updateWorkspaceBySlug

  /** The fields of an update this model follows; the others pass through
      untouched. */
  datatype WorkspaceUpdate = WorkspaceUpdate(
    name: Option<string>,
    slug: Option<string>,
    icon: Option<string>,
    opengraphImage: Option<string>,
    iconRedirectUrl: Option<string>)

  /** An inline `data:image…` value is uploaded and replaced by the storage
      URL `upload` returns for its path; any other value passes through. */
  function ResolveImage(value: Option<string>, path: string, upload: string -> string): (r: Option<string>)
    ensures !(value.Some? && StartsWith(value.value, DATA_IMAGE)) ==> r == value
    ensures value.Some? && StartsWith(value.value, DATA_IMAGE) ==> r == Some(upload(path))
  {
    if Truthy(value) && StartsWith(value.value, DATA_IMAGE) then Some(upload(path)) else value
  }

  /** `updateWorkspaceBySlug(slug, data)`, behind the workspace guard with
      membership and login required. A supplied slug must be valid, then a
      supplied redirect URL must be; after that inline images become uploads
      under the workspace's current slug. The answer is the update written.
      `isSlugValid`, `isValidUrl` and `upload` are the application's
      helpers. */
  function UpdateWorkspace(db: Db, req: Request, slug: string, data: WorkspaceUpdate,
                           isSlugValid: string -> bool, isValidUrl: string -> bool, upload: string -> string)
    : (r: Decision<WorkspaceUpdate>)
    ensures match WorkspaceAuth(db, req, slug, false, true)
            case Denied(e) => r == Denied(e)
            case Thrown => r == Thrown
            case Granted(_) =>
              // the slug is checked first and only when one is supplied
              && (Truthy(data.slug) && !isSlugValid(data.slug.value) ==> r == Denied(SLUG_INVALID))
              && (!(Truthy(data.slug) && !isSlugValid(data.slug.value))
                  && Truthy(data.iconRedirectUrl) && !isValidUrl(data.iconRedirectUrl.value)
                  ==> r == Denied(REDIRECT_URL_INVALID))
              && (r.Granted? <==>
                    && (Truthy(data.slug) ==> isSlugValid(data.slug.value))
                    && (Truthy(data.iconRedirectUrl) ==> isValidUrl(data.iconRedirectUrl.value)))
    // only the two image fields change, and only inline images
    ensures r.Granted? ==>
              && r.ctx == data.(icon := r.ctx.icon, opengraphImage := r.ctx.opengraphImage)
              && (!(data.icon.Some? && StartsWith(data.icon.value, DATA_IMAGE)) ==> r.ctx.icon == data.icon)
              && (!(data.opengraphImage.Some? && StartsWith(data.opengraphImage.value, DATA_IMAGE))
                  ==> r.ctx.opengraphImage == data.opengraphImage)
              && (data.icon.Some? && StartsWith(data.icon.value, DATA_IMAGE) ==>
                    r.ctx.icon == Some(upload(WorkspaceAuth(db, req, slug, false, true).ctx.workspace.slug + "/icon.png")))
              && (data.opengraphImage.Some? && StartsWith(data.opengraphImage.value, DATA_IMAGE) ==>
                    r.ctx.opengraphImage
                    == Some(upload(WorkspaceAuth(db, req, slug, false, true).ctx.workspace.slug + "/opengraph.png")))
  {
    match WorkspaceAuth(db, req, slug, false, true)
    case Denied(e) => Denied(e)
    case Thrown => Thrown
    case Granted(ctx) =>
      if Truthy(data.slug) && !isSlugValid(data.slug.value) then Denied(SLUG_INVALID)
      else if Truthy(data.iconRedirectUrl) && !isValidUrl(data.iconRedirectUrl.value) then Denied(REDIRECT_URL_INVALID)
      else
        var base := ctx.workspace.slug;
        Granted(data.(icon := ResolveImage(data.icon, base + "/icon.png", upload),
                      opengraphImage := ResolveImage(data.opengraphImage, base + "/opengraph.png", upload)))
  }

  /** An update without inline images is written exactly as sent. */
  lemma ImagelessUpdatePassesThrough(db: Db, req: Request, slug: string, data: WorkspaceUpdate,
                                     isSlugValid: string -> bool, isValidUrl: string -> bool,
                                     upload: string -> string)
    requires !(data.icon.Some? && StartsWith(data.icon.value, DATA_IMAGE))
    requires !(data.opengraphImage.Some? && StartsWith(data.opengraphImage.value, DATA_IMAGE))
    requires UpdateWorkspace(db, req, slug, data, isSlugValid, isValidUrl, upload).Granted?
    ensures UpdateWorkspace(db, req, slug, data, isSlugValid, isValidUrl, upload).ctx == data
  {
  }

  // ---------------------------------------------------------------------------
  // getWorkspaceMembers

  /** A `workspace_member` row joined with its profile. */
  datatype MemberRow = MemberRow(profile: Profile, createdAt: int)

  /** A member as handed out: the profile's fields plus `joined_at`. */
  datatype TeamMember = TeamMember(id: string, email: string, fullName: string, joinedAt: int)

  function Reshape(m: MemberRow): TeamMember
  {
    TeamMember(m.profile.id, m.profile.email, m.profile.fullName, m.createdAt)
  }

  /** The member list: one entry per row, in row order, each carrying its
      row's profile and its membership date as `joined_at`. */
  function Members(rows: seq<MemberRow>): (r: seq<TeamMember>)
    ensures |r| == |rows|
    ensures forall k :: 0 <= k < |r| ==>
              && Profile(r[k].id, r[k].email, r[k].fullName) == rows[k].profile
              && r[k].joinedAt == rows[k].createdAt
  {
    seq(|rows|, k requires 0 <= k < |rows| => Reshape(rows[k]))
  }

  /** The reshaping loses nothing: the rows can be read back from the members. */
  lemma MembersLoseNothing(rows: seq<MemberRow>)
    ensures forall k :: 0 <= k < |rows| ==>
              var m := Members(rows)[k]; MemberRow(Profile(m.id, m.email, m.fullName), m.joinedAt) == rows[k]
  {
  }

  // ---------------------------------------------------------------------------
  // getWorkspaceAnalytics: top feedback and top changelogs

  /** One entry of a top list: the key (an id, the root page, …) and the
      count analytics reports for it. */
  datatype TopEntry = TopEntry(key: string, count: int)

  /** A feedback or changelog row as far as the rewrite needs it. */
  datatype TitledRow = TitledRow(id: string, title: string)

  /** `rows.find(row => row.id === key)`. */
  function FindRow(rows: seq<TitledRow>, key: string): (r: Option<TitledRow>)
    ensures r.Some? ==> r.value in rows && r.value.id == key
    ensures r.None? <==> forall k :: 0 <= k < |rows| ==> rows[k].id != key
    // `find` answers with the first row carrying the key
    ensures r.Some? ==> exists i :: 0 <= i < |rows| && rows[i] == r.value
                                    && forall k :: 0 <= k < i ==> rows[k].id != key
  {
    if |rows| == 0 then None
    else if rows[0].id == key then Some(rows[0])
    else
      var rest := FindRow(rows[1..], key);
      assert rest.Some? ==> exists i :: 0 <= i < |rows| && rows[i] == rest.value
                                        && forall k :: 0 <= k < i ==> rows[k].id != key by {
        if rest.Some? {
          var j :| 0 <= j < |rows[1..]| && rows[1..][j] == rest.value
                   && forall k :: 0 <= k < j ==> rows[1..][k].id != key;
          assert rows[j + 1] == rest.value;
          forall k | 0 <= k < j + 1 ensures rows[k].id != key {
            if k > 0 { assert rows[k] == rows[1..][k - 1]; }
          }
        }
      }
      rest
  }

  /** One entry rewritten: dropped when no row has its key as id, otherwise
      keyed by the row's title, or by the id when the title is empty. */
  function Relabel(entry: TopEntry, rows: seq<TitledRow>): (r: Option<TopEntry>)
    ensures r.None? <==> FindRow(rows, entry.key).None?
    ensures r.Some? ==> r.value.count == entry.count
    ensures r.Some? ==> var title := FindRow(rows, entry.key).value.title;
                        r.value.key == (if title != "" then title else entry.key)
  {
    match FindRow(rows, entry.key)
    case None => None
    case Some(row) => Some(entry.(key := if row.title != "" then row.title else entry.key))
  }

  /** The rewritten top list: entries relabelled in order, unmatched entries
      and entries that end up keyed `_root` removed. */
  function TopList(entries: seq<TopEntry>, rows: seq<TitledRow>): (r: seq<TopEntry>)
    ensures |r| <= |entries|
    ensures forall k :: 0 <= k < |r| ==> r[k].key != ROOT_KEY
    decreases |entries|
  {
    if |entries| == 0 then []
    else
      var rest := TopList(entries[1..], rows);
      match Relabel(entries[0], rows)
      case None => rest
      case Some(e) => if e.key == ROOT_KEY then rest else [e] + rest
  }

  /** Every entry of the list is a relabelled input entry. */
  lemma {:induction false} TopListFromEntries(entries: seq<TopEntry>, rows: seq<TitledRow>)
    ensures forall e :: e in TopList(entries, rows) ==>
              exists j :: 0 <= j < |entries| && Relabel(entries[j], rows) == Some(e)
    decreases |entries|
  {
    if |entries| > 0 {
      TopListFromEntries(entries[1..], rows);
      var rest := TopList(entries[1..], rows);
      forall e | e in TopList(entries, rows)
        ensures exists j :: 0 <= j < |entries| && Relabel(entries[j], rows) == Some(e)
      {
        if e in rest {
          var j :| 0 <= j < |entries[1..]| && Relabel(entries[1..][j], rows) == Some(e);
          assert entries[1..][j] == entries[j + 1];
        } else {
          assert Relabel(entries[0], rows) == Some(e);
        }
      }
    }
  }

  /** Every input entry that has a row and is not relabelled `_root` is kept. */
  lemma {:induction false} TopListKeepsMatched(entries: seq<TopEntry>, rows: seq<TitledRow>)
    ensures forall j :: 0 <= j < |entries| && Relabel(entries[j], rows).Some?
                        && Relabel(entries[j], rows).value.key != ROOT_KEY
              ==> Relabel(entries[j], rows).value in TopList(entries, rows)
    decreases |entries|
  {
    if |entries| > 0 {
      TopListKeepsMatched(entries[1..], rows);
      forall j | 0 <= j < |entries| && Relabel(entries[j], rows).Some? && Relabel(entries[j], rows).value.key != ROOT_KEY
        ensures Relabel(entries[j], rows).value in TopList(entries, rows)
      {
        if j > 0 {
          assert entries[j] == entries[1..][j - 1];
        }
      }
    }
  }

  /** Entries keep their relative order: the list of a concatenation is the
      concatenation of the lists. */
  lemma {:induction false} TopListKeepsOrder(first: seq<TopEntry>, rest: seq<TopEntry>, rows: seq<TitledRow>)
    ensures TopList(first + rest, rows) == TopList(first, rows) + TopList(rest, rows)
    decreases |first|
  {
    if |first| == 0 {
      assert first + rest == rest;
    } else {
      assert (first + rest)[0] == first[0];
      assert (first + rest)[1..] == first[1..] + rest;
      TopListKeepsOrder(first[1..], rest, rows);
    }
  }

  /** The analytics answer: the timeseries as fetched, and both top lists
      rewritten the same way, feedback against the workspace's feedback and
      changelogs against its changelogs. */
  datatype Analytics = Analytics(timeseries: seq<TopEntry>, topFeedback: seq<TopEntry>, topChangelogs: seq<TopEntry>)

  function RestructureAnalytics(timeseries: seq<TopEntry>, topFeedback: seq<TopEntry>, topChangelogs: seq<TopEntry>,
                                feedback: seq<TitledRow>, changelogs: seq<TitledRow>): (r: Analytics)
    ensures r.timeseries == timeseries
    ensures r.topFeedback == TopList(topFeedback, feedback)
    ensures r.topChangelogs == TopList(topChangelogs, changelogs)
  {
    Analytics(timeseries, TopList(topFeedback, feedback), TopList(topChangelogs, changelogs))
  }
}
